=== FILE: README.md ===
# Smart-helmet crash incident core, in Dafny

This project models the crash-incident logic of the smart-helmet system. A
crash moves through these parts:

- **Detection.** The ESP32 helmet firmware scores crashes with a decaying
  confidence (`SmartHelmet/crash_detector.cpp`). A heuristic "ML" scorer reads a
  100-sample ring buffer (`SmartHelmet/ml_crash_detector.cpp`). The phone app
  runs its own scorer behind an alert gate with a 30 s cooldown
  (`helmet-sensor-app/services/sensorService.ts`). The server re-checks each
  reported sample (`helmet-server/services/detectionService.js`).
- **The pending incident and its resolution.**
  - The helmet's MONITOR/PENDING state machine resolves an incident by the
    cancel button or by the 10 s window (`SmartHelmet/state_machine.cpp`). The
    button has its own debouncer (`SmartHelmet/button.cpp`).
  - The phone's cancel countdown re-arms every 100 ms
    (`helmet-sensor-app/components/CancelButton.tsx`).
  - The server keeps per-client session maps for `accident_detected`,
    `accident_cancelled`, `no_response` and `disconnect`
    (`helmet-server/server.js`).
  - The MQTT handler caches ACCIDENT_PENDING telemetry per helmet and turns
    CRASH_CANCELLED / CRASH_CONFIRMED into log records and e-mail requests
    (`helmet-server/services/mqttService.js`).
  - Accidents are classified and logged (`helmet-server/services/alertService.js`).
- **The dashboard.**
  - The in-memory store of the 50 newest accidents and its views
    (`smart-helmet-dashboard/lib/accidents-store.ts`).
  - The simulate-accident route
    (`smart-helmet-dashboard/app/api/simulate-accident/route.ts`).
  - The accidents-log route (`smart-helmet-dashboard/app/api/accidents/route.ts`).
- **Logging and discovery.**
  - The device's CSV training-data logger (`SmartHelmet/data_logger.cpp`).
  - The phone's LAN discovery of the server
    (`helmet-sensor-app/services/discoveryService.ts`).

## Modelling conventions

- **Pure functions.** Every handler is a pure function from the old state and
  its inputs to the new state and a list of effects. Effects are socket emits,
  MQTT publishes, LED changes, serial lines, e-mails and timers. Per-client and
  per-helmet state is kept in maps, as the source does.
- **Inputs.** Clocks (`Date.now()`, `millis()`) are an explicit `now` parameter.
  So are sensor readings, the HTTP probe outcomes, the log file and the SMTP
  outcome.
- **Time differences** are mathematical integers.
- **Discovery's gateway list** is a parameter of a pass. The service always
  passes the fixed `Discovery.GATEWAYS`, whose 200 candidates
  `Discovery.HotspotCandidates` describes.
- **JavaScript values.** Objects are `Json.Value`, and a missing field reads as
  `undefined`. `||` and truthiness follow JavaScript (`Json.Truthy`, `Json.Or`),
  so the falsy-zero behaviour of the merges is kept. Floats are reals.
- **Constants.** Each component has its own thresholds, and the model keeps
  every one as the code has it:

  | component | g-force limit | hard impact | tilt limit |
  |---|---|---|---|
  | server | 2.5 g | — | 45° |
  | phone | 2.0 g | 3.5 g | 60° |
  | device | 4.5 g | 3.5 g | 60° |

## Behaviour worth knowing

- **Pending-cache location.** Every ACCIDENT_PENDING event with a truthy
  location overwrites the cached location (`mqttService.js:70-73`). The cache
  is preferred over the event only at resolution (`:95`, `:116`). See
  `MqttService.LaterPendingLocationWins`.
- **E-mail needs a location.** A confirmed crash is mailed only when the
  merged location is truthy (`mqttService.js:139`).
- **Server verdicts.** The server's verdict names only G_FORCE or TILT, with
  G_FORCE taking priority. It carries no confidence
  (`detectionService.js:10-30`). A reading that is missing throws a TypeError
  once either test fires (`:18-19`). The alert then leaves only the duplicate
  clock behind (`server.js:105-108`).
- **Cooldown after resolution.** The server deletes the client's cooldown
  record when an incident resolves (`server.js:148-149`, `:172-173`). A new
  alert is therefore accepted at once (`ServerSessions.ResolutionClearsCooldown`).
  A disconnect keeps the record (`:220`).
- **Countdown.** The phone re-arms a 100 ms timeout and recomputes the
  remaining time from the start on each tick (`CancelButton.tsx:24-38`).

## Model

| member | source | states |
|---|---|---|
| ServerDetection.DetectAccident | helmet-server/services/detectionService.js:6-34 | A sample trips a test exactly when a present g-force is > 2.5 or a present tilt has \|tilt\| > 45, both strict. A tripped sample is detected when both readings are present and throws a TypeError otherwise; an untripped one is not detected. A detection is PENDING, carries the sample's time stamp, location, g-force and tilt, and has reason G_FORCE exactly when the g-force test passed. |
| ServerDetection.VerdictRecord | helmet-server/services/detectionService.js:23-33 | A miss is the one-field object `{detected: false}`. A hit has exactly the six fields `detected`, `reason`, `severity`, `timestamp`, `location` and `sensorData`. A thrown verdict has no object. |
| ServerDetection.BoundaryNotDetected | helmet-server/services/detectionService.js:10-11 | A sample exactly at 2.5 g and ±45° is not an accident. |
| ServerDetection.GForceWinsOverTilt | helmet-server/services/detectionService.js:14 | When both tests pass, the reason is G_FORCE. |
| ServerDetection.TiltOnlyWhenGForceQuiet | helmet-server/services/detectionService.js:10-14 | The reason is TILT if and only if the g-force test fails and the tilt test passes. |
| ServerDetection.TiltSignIrrelevant | helmet-server/services/detectionService.js:11 | Negating a present tilt changes neither the verdict nor the reason. |
| ServerDetection.MissingReadingThrowsOnlyWhenTripped | helmet-server/services/detectionService.js:10-19 | With no g-force, the validator throws exactly when the tilt passes 45° and reports no accident otherwise. |
| AlertService.LogAccident | helmet-server/services/alertService.js:58-78 | The log grows by one record at the end. That record is the accident plus `loggedAt`; every other field is unchanged and earlier entries are untouched. |
| AlertService.ClassifyAccident | helmet-server/services/alertService.js:25-56 | CANCELLED gives FALSE_ALARM with its status, and NO_RESPONSE gives HIGH with its status. Any other response leaves severity and status undefined. The response time and the response are recorded, other fields are kept, and exactly one record is appended to the log. |
| AlertService.ClassifyAppendsInOrder | helmet-server/services/alertService.js:56-77 | Two classifications append two records in call order. |
| ServerSessions.OnAccidentDetected | helmet-server/server.js:91-130 | Within 30 s of the client's last time (0 when it has none), nothing changes and nothing is emitted. Otherwise the last time becomes `now`. On a detection, the client's active accident is the validator's full record, and a confirmation goes to the sender plus one broadcast. A throwing validator leaves only the new last time. The log and every other client are untouched. |
| ServerSessions.Forget | helmet-server/server.js:148-149 | Removes the client's active accident and cooldown record, and nothing else. |
| ServerSessions.OnAccidentCancelled | helmet-server/server.js:133-153 | Without an active accident, nothing happens. With one: the client's stored accident record, classified as CANCELLED (so FALSE_ALARM, with its response time), is the one record logged; `accident_cancelled` with severity low is broadcast, and both of the client's entries are removed. Other clients are untouched. |
| ServerSessions.OnNoResponse | helmet-server/server.js:156-178 | Without an active accident, nothing happens. With one: the client's stored accident record, classified as NO_RESPONSE (so HIGH), is the one record logged, and that same classified record is the accident data of the `accident_timeout` broadcast (severity high). Both entries are removed; other clients are untouched. |
| ServerSessions.OnDisconnect | helmet-server/server.js:215-221 | Only the active accident is dropped; the cooldown record stays. |
| ServerSessions.HandlePreservesValid | helmet-server/server.js:105-112 | Every handler keeps this invariant: a client with an active accident has a cooldown record. |
| ServerSessions.ResolutionClearsCooldown | helmet-server/server.js:97-112 | After a cancel or a timeout, the client's next alert is not a duplicate, however soon it comes. A detected one opens a new accident. |
| ServerSessions.DisconnectKeepsCooldown | helmet-server/server.js:97-101 | After a disconnect, an alert within 30 s of the last one is still ignored. |
| ServerSessions.OtherClientsIsolated | helmet-server/server.js:27-34 | No sequence of other clients' events changes a client's entries in either map. |
| MqttService.HelmetId | helmet-server/services/mqttService.js:60 | The helmet id is the event's when truthy, else `H001`. |
| MqttService.MergeField | helmet-server/services/mqttService.js:70-82 | A truthy event field overwrites the cached one. A falsy one leaves the cache as it was. No other field changes. |
| MqttService.MergePending | helmet-server/services/mqttService.js:67-85 | Each of location / gForce / tilt / acceleration is taken from the event when truthy and kept otherwise. No other field changes. |
| MqttService.CancelledRecord | helmet-server/services/mqttService.js:92-102 | gForce, tilt and location each prefer the cache, then the event, then 0, 0 and null. The record has the resolution time, the helmet id and the event's source (default ESP32). It is severity low, status Cancelled, `isCancelled` true. |
| MqttService.ConfirmedRecord | helmet-server/services/mqttService.js:113-137 | gForce, tilt and acceleration prefer the event, then the cache, then 0, 0 and `{}`. Location prefers the cache. The record has the resolution time, the helmet id and the source (default ESP32). It is severity high, status Confirmed, `isCancelled` false. |
| MqttService.CancelledRecordKeys | helmet-server/services/mqttService.js:92-102 | A cancelled record has exactly the nine fields written, so no acceleration. |
| MqttService.ConfirmedRecordKeys | helmet-server/services/mqttService.js:125-136 | A confirmed record has exactly those nine fields plus acceleration. |
| MqttService.EmailRequest | helmet-server/services/mqttService.js:139-147 | The e-mail carries the merged final location, gForce and tilt preferring the event, the event's source (default ESP32) and its own clock reading. It has exactly these five fields. |
| MqttService.HandleHelmetEvent | helmet-server/services/mqttService.js:53-163 | The event is relayed first, and only when a socket server is set. Every later effect is an e-mail. Other helmets' cache entries are untouched. Unknown event types change nothing. The clock is read twice on confirmation: `now` stamps the logged record (:130) and `mailedAt` the e-mail, which is built after the log write (:145). |
| MqttService.PendingMerge | helmet-server/services/mqttService.js:62-85 | ACCIDENT_PENDING merges truthy fields into the helmet's cache entry. It logs nothing and emits only the relay. |
| MqttService.ZeroNeverOverwrites | helmet-server/services/mqttService.js:74-79 | A pending gForce or tilt of 0 never replaces a cached value. |
| MqttService.Cancel | helmet-server/services/mqttService.js:87-105 | The CRASH_CANCELLED branch drops the helmet's cache entry, appends exactly one log record and requests no e-mail. |
| MqttService.Confirm | helmet-server/services/mqttService.js:107-161 | The CRASH_CONFIRMED branch drops the helmet's cache entry, appends exactly one log record and requests at most one e-mail. |
| MqttService.CancelResolves | helmet-server/services/mqttService.js:87-105 | CRASH_CANCELLED appends exactly one low / Cancelled record and drops the entry. Its gForce, tilt and location are the first truthy of cache, event and default, read case by case. It carries the helmet id and the time, and no acceleration. No e-mail is sent. |
| MqttService.ConfirmResolves | helmet-server/services/mqttService.js:107-161 | CRASH_CONFIRMED appends exactly one high / Confirmed record and drops the entry. gForce, tilt and acceleration are the first truthy of event, cache and default; location is cache first. The record carries the helmet id and the time of the first clock reading. |
| MqttService.ConfirmMails | helmet-server/services/mqttService.js:139-158 | CRASH_CONFIRMED requests an e-mail if and only if the cache-first location is truthy. The request carries that location, the event-first gForce and tilt, and the event's source (default ESP32). Its timestamp is the second clock reading, taken after the log write, so it need not equal the record's. |
| MqttService.LaterPendingLocationWins | helmet-server/services/mqttService.js:70-73 | Of two pending events with locations, the later one's location is cached and ends up in the confirmed record. |
| MobileSensor.Confidence | helmet-sensor-app/services/sensorService.ts:124-128 | The score is one of 0, 0.4, 0.8 or 1.0, and 1.0 on any hard impact. |
| MobileSensor.ConfidenceMatchesCrash | helmet-sensor-app/services/sensorService.ts:124-131 | The score reaches 0.7 exactly for a hard impact (> 3.5 g), or an impact (> 2.0 g) with pitch or roll > 60°. |
| MobileSensor.CheckAnomaly | helmet-sensor-app/services/sensorService.ts:96-149 | It never reports while an alert is active or within 30 s of the last report, and at most once per call. It reports exactly when the gate is open and the sample is a crash. On a report it locks the gate, stamps the time and hands over the magnitude. Otherwise nothing changes. |
| MobileSensor.ResetAlertState | helmet-sensor-app/services/sensorService.ts:173-176 | Reopens the gate and leaves the cooldown clock and the subscription alone. |
| MobileSensor.StartMonitoring | helmet-sensor-app/services/sensorService.ts:29-94 | Subscribing starts the sample stream and leaves the gate and its cooldown clock as they were. |
| MobileSensor.StopMonitoring | helmet-sensor-app/services/sensorService.ts:152-167 | Drops the subscriptions and returns the gate to IDLE. The cooldown clock is kept. |
| MobileSensor.ActiveAlertIsSilent | helmet-sensor-app/services/sensorService.ts:98-100 | While an alert is active, no sample sequence produces a report or a change. |
| MobileSensor.AtMostOneReportPerEpisode | helmet-sensor-app/services/sensorService.ts:98-142 | Between two resets, any sample sequence reports at most once. |
| MobileSensor.ResetKeepsCooldown | helmet-sensor-app/services/sensorService.ts:103-106 | Resetting or stopping right after a report still blocks reports for 30 s. |
| CrashDetector.NextConfidence | SmartHelmet/crash_detector.cpp:26-33 | The score after a sample stays in [0, 1] and is 1.0 on a hard impact. Below a hard impact it is the decayed previous score plus 0.4 when tilted, clamped to [0, 1]. |
| CrashDetector.CrashCandidateDetected | SmartHelmet/crash_detector.cpp:14-37 | Before the cooldown ends, the detector is unchanged and reports nothing. Afterwards the stored score is the next confidence and the cooldown is kept. The call fires exactly when the score reaches 0.7, and always on a hard impact. |
| CrashDetector.GetCrashConfidence | SmartHelmet/crash_detector.cpp:39-41 | The reported confidence is a probability. |
| CrashDetector.ResetCrashDetector | SmartHelmet/crash_detector.cpp:43-46 | The score is zeroed and the cooldown ends 3 s after the reset. |
| CrashDetector.ResetSilencesDetector | SmartHelmet/crash_detector.cpp:15-17 | No sample within 3 s of a reset fires. |
| CrashDetector.CrashLevelIsHardImpact | SmartHelmet/crash_detector.cpp:27-31 | Any impact over the 4.5 g crash limit is above 3.5 g, so it fires at confidence 1.0. |
| CrashDetector.QuietSampleDecays | SmartHelmet/crash_detector.cpp:26-36 | A quiet sample multiplies the score by 0.85. It fires exactly when that product is at least 0.7. |
| CrashDetector.TwoTiltSamplesFire | SmartHelmet/crash_detector.cpp:26-36 | From zero, one tilt-only sample gives 0.4 without firing. A second gives 0.74 and fires. |
| DeviceStateMachine.Update | SmartHelmet/state_machine.cpp:19-58 | An IDLE machine is untouched. MONITOR within 500 ms of the last change is untouched. After that, the detector sees the sample. A quiet sample only advances the detector. A firing one enters PENDING, lights the LED and publishes ACCIDENT_PENDING; if the button is already down it is cancelled in the same call, with all four effects. PENDING with the button down cancels, even after 10 s. Otherwise it confirms exactly when more than 10 s have passed. Both resolutions reset the detector. |
| DeviceStateMachine.OnExternalAccidentPending | SmartHelmet/state_machine.cpp:60-68 | From MONITOR it enters PENDING stamped at `now`. In any other state it does nothing. |
| DeviceStateMachine.ExternalPendingEffects | SmartHelmet/state_machine.cpp:60-68 | The external entry into PENDING publishes nothing. Its only effect is the LED, lit exactly when it leaves MONITOR. |
| DeviceStateMachine.ApplyKeepsReachable | SmartHelmet/state_machine.cpp:9-13 | Every event keeps the machine out of IDLE and with no cancel request left over. |
| DeviceStateMachine.IdleUnreachable | SmartHelmet/state_machine.cpp:9-13 | From power-up, no event sequence reaches IDLE. |
| DeviceStateMachine.UpdateResolvesOnce | SmartHelmet/state_machine.cpp:36-57 | One update publishes at most one resolution. It publishes one exactly when it leaves a pending incident back in MONITOR. |
| CancelTimer.Tick | helmet-sensor-app/components/CancelButton.tsx:24-38 | An inactive timer does nothing. An active tick shows the remaining whole seconds (0 to the duration). It calls `onTimeout` exactly when the time is up, and otherwise schedules the next tick 100 ms later. |
| CancelTimer.Mount | helmet-sensor-app/components/CancelButton.tsx:13-40 | Mounting starts at `now`, with the given duration or 10 s. It shows the full duration at once. |
| CancelTimer.Unmount | helmet-sensor-app/components/CancelButton.tsx:42-47 | Clean-up stops the timer. It clears the pending timeout exactly when one was scheduled. |
| CancelTimer.HandleCancel | helmet-sensor-app/components/CancelButton.tsx:50-56 | The timer stops, and `onCancel` runs once, last. `onTimeout` is never called. |
| CancelTimer.TickIgnoresLastDisplay | helmet-sensor-app/components/CancelButton.tsx:25-27 | What a tick shows depends only on the start time, never on the previous display. |
| CancelTimer.InactiveNeverTimesOut | helmet-sensor-app/components/CancelButton.tsx:25 | A stopped timer ignores every later tick. |
| CancelTimer.NoTimeoutAfterCancel | helmet-sensor-app/components/CancelButton.tsx:42-56 | After a cancel or an unmount, no tick sequence ever calls `onTimeout`. |
| CancelTimer.DefaultCountdownEnds | helmet-sensor-app/components/CancelButton.tsx:13-37 | With the default duration, the tick at 9.95 s still shows 1 and reschedules. The tick at 10 s times out. |
| MlCrashDetector.InitialValid | SmartHelmet/ml_crash_detector.cpp:15-19 | The zeroed statics are a valid ring buffer, empty and at slot 0. |
| MlCrashDetector.AddSensorSample | SmartHelmet/ml_crash_detector.cpp:38-58 | A sample less than 20 ms after the last is dropped. Otherwise it is written at the index and no other slot changes. The index advances modulo 100, and the buffer becomes full on wrapping. |
| MlCrashDetector.ScoreIsClampedWeightSum | SmartHelmet/ml_crash_detector.cpp:109-134 | The score equals the clamped sum of the weights of the passing feature tests (0.3, 0.25, 0.2, 0.15, 0.3). |
| MlCrashDetector.ScoreMonotone | SmartHelmet/ml_crash_detector.cpp:109-134 | Raising any feature never lowers the score. |
| MlCrashDetector.RunInference | SmartHelmet/ml_crash_detector.cpp:62-136 | The score is 0 until the window is full, and the clamped weight sum afterwards. It is always in [0, 1]. |
| MlCrashDetector.MlCrashDetected | SmartHelmet/ml_crash_detector.cpp:138-147 | Adds the sample and stores the inference over the updated window (the clamped sum of the passed rule weights once full). It reports exactly when the score is ≥ 0.5: never before the window is full, and always on impact with rotation. |
| MlCrashDetector.GetMlConfidence | SmartHelmet/ml_crash_detector.cpp:149-151 | The reported confidence is a probability. |
| MlCrashDetector.ResetMlCrashDetector | SmartHelmet/ml_crash_detector.cpp:153-157 | Index, full flag and score are cleared. Buffer contents and the sample clock are kept. |
| MlCrashDetector.ImpactWithRotationDetected | SmartHelmet/ml_crash_detector.cpp:112-114 | Impact over 4 g with rotation over 150 °/s alone scores at least 0.6, over the 0.5 threshold. |
| MlCrashDetector.RingPosition | SmartHelmet/ml_crash_detector.cpp:51-57 | After n accepted samples, the index is (start + n) mod 100. The buffer is full exactly when it was full or start + n ≥ 100. |
| MlCrashDetector.FullAfterHundred | SmartHelmet/ml_crash_detector.cpp:51-57 | After a reset, the window is full exactly from the hundredth accepted sample. |
| Button.FallingEdge | SmartHelmet/button.cpp:29-35 | Reports a press exactly on a HIGH-to-LOW change of the debounced state. |
| Button.ButtonPressed | SmartHelmet/button.cpp:14-36 | As written: a reading different from the debounced state restarts the timer. The debounced state can only change after more than 50 ms, and a press is reported exactly on its falling edge. |
| Button.StableNeverChanges | SmartHelmet/button.cpp:20-26 | As written, no call changes the debounced state. |
| Button.NeverFiresAsWritten | SmartHelmet/button.cpp:14-36 | As written, from power-up, no poll sequence ever reports a press. |
| Button.HeldPressIgnoredAsWritten | SmartHelmet/button.cpp:20-26 | A press held from 1000 ms to 2000 ms is not reported. |
| Button.Debounced | SmartHelmet/button.cpp:14-36 | Corrected: the timer restarts on a raw reading change. The debounced state changes only after more than 50 ms of a steady reading. |
| Button.HeldPressFires | SmartHelmet/button.cpp:20-35 | Corrected: a press held over 50 ms is reported on the next poll. |
| Button.ShortBounceIgnored | SmartHelmet/button.cpp:24-26 | Corrected: a press of 50 ms or less is not reported. |
| Button.NoDoublePress | SmartHelmet/button.cpp:29-35 | In either version, two consecutive calls never both report a press. |
| DataLogger.StartDataCollection | SmartHelmet/data_logger.cpp:21-36 | A running session is rejected with an error line and left as it was. Otherwise a session starts with the label, count 0 and start time `now`, and prints the START line and the CSV header. |
| DataLogger.StopDataCollection | SmartHelmet/data_logger.cpp:38-49 | Without a session, only an error line. With one, the session ends, label and count are cleared, and one STOP line is printed. |
| DataLogger.StopReportsCount | SmartHelmet/data_logger.cpp:45 | The number in the STOP line parses back to the session's sample count. |
| DataLogger.LogSensorSample | SmartHelmet/data_logger.cpp:51-96 | Outside a session, or within 20 ms of the last row, nothing happens. Otherwise one 10-cell row is printed: the time since the session start, then ax, ay, az, gx, gy, gz to 4 decimals and pitch, roll to 2 decimals, then the label. The count grows by one. |
| DataLogger.CountMatchesRows | SmartHelmet/data_logger.cpp:51-96 | Over any sample sequence, the count grows by exactly the number of rows printed. The session itself is unchanged. |
| DataLogger.SessionReportsRows | SmartHelmet/data_logger.cpp:21-49 | Start, log, stop: the STOP line reports exactly the number of rows the session printed. |
| AccidentsStore.AddAccident | smart-helmet-dashboard/lib/accidents-store.ts:29-35 | The new record goes first and the old records follow in order. At most 50 are kept, so the oldest drops off. |
| AccidentsStore.AddAllKeepsNewest | smart-helmet-dashboard/lib/accidents-store.ts:29-35 | After any batch, the store is the 50 newest records overall, newest first. |
| AccidentsStore.AddAllBounded | smart-helmet-dashboard/lib/accidents-store.ts:32-34 | The store never exceeds 50 records. |
| AccidentsStore.GetAccidents | smart-helmet-dashboard/lib/accidents-store.ts:38-40 | Returns a copy equal to the store. |
| AccidentsStore.GetAlerts | smart-helmet-dashboard/lib/accidents-store.ts:43-65 | One alert per record, in order. It is active exactly when under 24 h old. The hours are the floor of the elapsed time. |
| AccidentsStore.GetActiveAlertsCount | smart-helmet-dashboard/lib/accidents-store.ts:68-71 | The number of active records, at most the store size. It equals the size exactly when every record is active. |
| AccidentsStore.GetNotifications | smart-helmet-dashboard/lib/accidents-store.ts:93-114 | One unread notification per record. A high one is a crash with the crash title. Otherwise a cancelled one is a false alarm and any other a notice. |
| AccidentsStore.ClearAccidents | smart-helmet-dashboard/lib/accidents-store.ts:117-119 | The store and every view become empty. |
| AccidentsStore.NewAccidentIsActiveAlert | smart-helmet-dashboard/lib/accidents-store.ts:29-65 | A record just added is the first alert and is active for 24 h. |
| SimulateRoute.Coordinates | smart-helmet-dashboard/app/api/simulate-accident/route.ts:21-24 | The body's coordinates are used only when both are truthy. Otherwise both defaults are used. |
| SimulateRoute.Severity | smart-helmet-dashboard/app/api/simulate-accident/route.ts:25-27 | The severity is the body's non-empty one, else `high`. It is never empty. |
| SimulateRoute.AxisReading | smart-helmet-dashboard/app/api/simulate-accident/route.ts:59-61 | A present axis is measured, even when 0. A missing one takes the severity's preset. |
| SimulateRoute.SensorsFor | smart-helmet-dashboard/app/api/simulate-accident/route.ts:58-72 | Impact and tilt are measured when the body has them (tilt as its absolute value); otherwise they are presets. Each accelerometer axis is measured when the body has it, even at 0, and is otherwise the preset 8.5 / 6.2 / 12.3 for high severity or 2.1 / 1.8 / 3.2 for low. The gyroscope is always the preset 245.3 / 189.7 / 156.4 for high severity or 45.2 / 32.1 / 28.5 for low. |
| SimulateRoute.EventId | smart-helmet-dashboard/app/api/simulate-accident/route.ts:44 | The id is `EVT-` followed by the last at most four digits of the clock. |
| SimulateRoute.TelemetryFor | smart-helmet-dashboard/app/api/simulate-accident/route.ts:40-75 | The record carries the computed severity, coordinates and sensor block, the fixed rider and helmet, and the body's time stamp when truthy. It is cancelled exactly when the severity is `low`. The source is `UNKNOWN` unless given. |
| SimulateRoute.EmailStep | smart-helmet-dashboard/app/api/simulate-accident/route.ts:229-264 | The transport is called exactly for a `high` accident with credentials. Without credentials the e-mail is simulated. Otherwise it is sent or failed as the transport answers. |
| SimulateRoute.Post | smart-helmet-dashboard/app/api/simulate-accident/route.ts:229-301 | A rejection with code EAUTH answers 401 and stores nothing. Every other outcome stores the record first and echoes it back. It succeeds exactly when the e-mail did not fail, and says sent exactly when it was. |
| SimulateRoute.LowSeverityIsLoggedOnly | smart-helmet-dashboard/app/api/simulate-accident/route.ts:231-271 | A `low` simulation never calls the transport, is stored as cancelled, and succeeds. |
| SimulateRoute.NoBodyUsesDefaults | smart-helmet-dashboard/app/api/simulate-accident/route.ts:8-15 | Without a body: a high crash at the default coordinates, time-stamped `now`, from `UNKNOWN`. |
| SimulateRoute.OneCoordinateIgnored | smart-helmet-dashboard/app/api/simulate-accident/route.ts:21-24 | A lone latitude is ignored; both coordinates default. |
| AccidentsRoute.ComputeStats | smart-helmet-dashboard/app/api/accidents/route.ts:20-26 | The total is the number of entries. Each count is the number of entries whose field strictly equals the filter value. |
| AccidentsRoute.DisjointCounts | smart-helmet-dashboard/app/api/accidents/route.ts:22-25 | Two filters on different values of one field together count at most all entries. |
| AccidentsRoute.HandleGet | smart-helmet-dashboard/app/api/accidents/route.ts:7-36 | A missing file is an empty success. An unreadable file, a non-array, or an entry that is null answers failure with zero statistics. Otherwise the entries are echoed, and each of the five statistics is the count of its filter (high, low, false alarm, confirmed) or the total. High + low and false alarms + confirmed never exceed the total. |
| AccidentsRoute.UnflaggedInNeither | smart-helmet-dashboard/app/api/accidents/route.ts:24-25 | An entry without a boolean `isCancelled` counts as neither a false alarm nor confirmed. |
| Discovery.BaseIp | helmet-sensor-app/services/discoveryService.ts:57 | The network part is exactly the prefix before the gateway's last dot. |
| Discovery.MaxHost | helmet-sensor-app/services/discoveryService.ts:60-61 | Hosts up to 100 are probed on a `100.` network, up to 20 elsewhere. |
| Discovery.HostUrls | helmet-sensor-app/services/discoveryService.ts:62-63 | The candidate URLs of one network are hosts 1..n, ascending, on port 3001. |
| Discovery.CandidateCount | helmet-sensor-app/services/discoveryService.ts:56-63 | The number of candidates is the sum of the gateways' host ranges. |
| Discovery.CandidatesAppend | helmet-sensor-app/services/discoveryService.ts:56-63 | The gateways are scanned in list order: the candidates of two lists are the first list's followed by the second's. |
| Discovery.PrivateHosts | helmet-sensor-app/services/discoveryService.ts:46-51 | The five private gateways probe 20 hosts each, 100 in all. |
| Discovery.HotspotHosts | helmet-sensor-app/services/discoveryService.ts:52-63 | The hotspot gateway's network is `100.106.213`, and its hosts 1..100 are probed. |
| Discovery.HotspotCandidates | helmet-sensor-app/services/discoveryService.ts:46-63 | One pass probes 200 URLs. The first 100 are the private networks' hosts and the last 100 are hosts 1..100 of `100.106.213`. |
| Discovery.FirstMatch | helmet-sensor-app/services/discoveryService.ts:56-89 | Finds the first candidate whose response is OK with the server greeting. Every earlier one does not match, and None means none matches. |
| Discovery.Scan | helmet-sensor-app/services/discoveryService.ts:56-92 | Probes in order and stops at the first match. A failed probe just moves on. With no match, every candidate is probed. |
| Discovery.StopDiscovery | helmet-sensor-app/services/discoveryService.ts:100-107 | Clears the interval and the callback. |
| Discovery.DiscoverServer | helmet-sensor-app/services/discoveryService.ts:42-95 | Runs one pass over the candidates of a gateway list (GATEWAYS in the service). With no match, nothing changes. With one, the held callback gets the first matching URL and discovery stops. |
| Discovery.StartDiscovery | helmet-sensor-app/services/discoveryService.ts:19-37 | Holds the callback, records the start and runs a first pass at once. |
| Discovery.IntervalTick | helmet-sensor-app/services/discoveryService.ts:29-35 | Once cleared, a firing does nothing. A firing more than 10 s after the start stops without probing. Otherwise it runs a pass. |
| Discovery.StoppedStaysSilent | helmet-sensor-app/services/discoveryService.ts:100-107 | After a stop, no firing sequence reports anything. |
| Discovery.TimeoutEndsDiscovery | helmet-sensor-app/services/discoveryService.ts:29-33 | The first late firing stops discovery, and nothing is reported after it. |

## Left out

- Hardware and transport I/O are left out, with their outcomes given as inputs:
  - the IMU registers and their trigonometry (`sqrt`, `atan2`); the magnitude, pitch, roll and the window statistics of `runInference` are given as inputs;
  - the LED pins, BLE, the serial port, sockets and MQTT publishing, which appear only as effects;
  - HTTP and SMTP;
  - MongoDB and the file write behind `logAccident`, which are assumed to succeed.
- Floating-point numbers are reals:
  - float32 rounding, NaN and infinities are not modelled;
  - display formatting is kept as the value being formatted (`toFixed`, `toLocaleString`, `Serial.print(x, n)`).
- Integer limits are not modelled:
  - `millis()` wrapping after 49 days;
  - unsigned time differences when a clock goes backwards (times are unbounded integers and differences may be negative);
  - overflow of the device's `int sampleCount`.
- The mobile gate's `listening` flag records the subscription. Samples reach `MobileSensor.CheckAnomaly` only through that subscription, so the flag is not re-checked there.
- Concurrency is not modelled: overlapping discovery passes, unawaited e-mail promises and interleaved handlers. Every handler runs to completion, one at a time.
- The React rendering, styles and the remaining countdown UI of `CancelButton.tsx` are left out.
- `getHistory` and the fixed `channels` block of `getNotifications` in the dashboard store are left out. They are display-only copies of fields already modelled.
- SimulateRoute.Post: the request body is taken as already typed. A body field of the wrong JSON type (which makes `toFixed` throw and the route answer 500) is not modelled, and neither is the e-mail HTML.
- SimulateRoute.EventId: the id and the time stamp read the clock once. The source reads `Date.now()` and `new Date()` separately.
- MlCrashDetector.RunInference: the window statistics (maxima and variances over the buffer) are inputs, not computed from the buffer, because they need `sqrt`. The `normalize` helper and the unused scaler constants are left out for the same reason.
- The sensor-streaming socket handlers and the sensor-data broadcast in `server.js` are left out, as they are not part of an incident's life.
- ServerDetection.DetectAccident: a reading is either a number or missing (`undefined` or `null`). A string or object reading, which JavaScript would compare after coercion, is not modelled. The model also stops the handler at the thrown TypeError; whether the server process survives that uncaught exception is not modelled.
- MobileSensor.Report keeps only the g-force of the `currentData` object handed to `onAnomalyDetected`. Its tilt, axes, rotation and location come from sensor callbacks outside this model.
- Json.Value has no array case. An array inside a record is not represented, and `Json.Field` answers `undefined` on `null` where JavaScript throws; the accidents route tests for that case itself.
- CancelTimer.Mount: the duration is a whole number of seconds (`nat`). The prop accepts any number, so fractional and negative durations are not modelled; the only caller passes 10 (helmet-sensor-app/screens/SensorScreen.tsx:378).
- AccidentsStore.GetAlerts: one `now` serves every record of the map. The source builds a new `Date` per record, so records mapped across a clock tick may see slightly different times.
- ServerSessions.ResolutionClearsCooldown requires `now` ≥ 30000 ms. With epoch times this always holds. Below it, a client with no record would itself count as a duplicate, because the source's `|| 0` stands in for a missing time.

## Findings

| source | as written | input that shows it | evidently intended | confidence | as-written member | corrected member |
|---|---|---|---|---|---|---|
| SmartHelmet/button.cpp:20-26 | The debounce timer restarts whenever the reading differs from the debounced state, so the debounced state can never change and `buttonPressed()` never returns true | From power-up, the pin reads LOW at 1000 ms and again at 2000 ms: both calls return false | Restart the timer when the raw reading changes (`lastButtonState`), and take the reading once it has been steady for more than 50 ms | not executed | Button.NeverFiresAsWritten | Button.HeldPressFires |

=== FILE: accidents_route.dfy ===
/**
  `GET` of smart-helmet-dashboard/app/api/accidents/route.ts: the server's
  accident log file read back and summarised. The file is an input: missing,
  unreadable or not JSON, JSON that is not an array, or an array of values.
  Field reads follow JavaScript: a missing field, or a field of a number,
  string or boolean, is `undefined`; reading a field of `null` throws.
 */
module AccidentsRoute {
  import opened Json

  /** What the log path holds. */
  datatype LogFile =
    | Missing                     // fs.existsSync is false
    | Unreadable                  // the read fails or JSON.parse throws
    | NotArray                    // parsed, but `.filter` is not a function on it
    | Entries(items: seq<Value>)  // a parsed JSON array

  datatype Stats = Stats(total: nat, highSeverity: nat, lowSeverity: nat, falseAlarms: nat, confirmed: nat)

  const ZERO_STATS := Stats(0, 0, 0, 0, 0)

  datatype Response = Response(success: bool, accidents: seq<Value>, stats: Stats)

  /** How many entries have field `k` strictly equal to `v`, counted from the back. */
  function CountEqual(items: seq<Value>, k: string, v: Value): (n: nat)
    ensures n <= |items|
  {
    if |items| == 0 then 0
    else CountEqual(items[..|items| - 1], k, v) + (if Field(items[|items| - 1], k) == v then 1 else 0)
  }

  /** Two different values of one field are counted by disjoint filters. */
  lemma {:induction false} DisjointCounts(items: seq<Value>, k: string, v: Value, w: Value)
    requires v != w
    ensures CountEqual(items, k, v) + CountEqual(items, k, w) <= |items|
  {
    if |items| > 0 {
      DisjointCounts(items[..|items| - 1], k, v, w);
    }
  }

  /** Reading a field of `null` or `undefined` throws a TypeError. */
  predicate Throws(v: Value) {
    v == Null || v == Undefined
  }

  /** The statistics fold: one pass over the entries, counting each filter. */
  method ComputeStats(items: seq<Value>) returns (s: Stats)
    ensures s.total == |items|
    ensures s.highSeverity == CountEqual(items, "severity", Str("high"))
    ensures s.lowSeverity == CountEqual(items, "severity", Str("low"))
    ensures s.falseAlarms == CountEqual(items, "isCancelled", Bool(true))
    ensures s.confirmed == CountEqual(items, "isCancelled", Bool(false))
  {
    s := ZERO_STATS;
    var i := 0;
    while i < |items|
      invariant 0 <= i <= |items|
      invariant s.total == i
      invariant s.highSeverity == CountEqual(items[..i], "severity", Str("high"))
      invariant s.lowSeverity == CountEqual(items[..i], "severity", Str("low"))
      invariant s.falseAlarms == CountEqual(items[..i], "isCancelled", Bool(true))
      invariant s.confirmed == CountEqual(items[..i], "isCancelled", Bool(false))
    {
      assert items[..i + 1][..i] == items[..i];
      var a := items[i];
      var severity := Field(a, "severity");
      var cancelled := Field(a, "isCancelled");
      s := Stats(
        s.total + 1,
        s.highSeverity + (if severity == Str("high") then 1 else 0),
        s.lowSeverity + (if severity == Str("low") then 1 else 0),
        s.falseAlarms + (if cancelled == Bool(true) then 1 else 0),
        s.confirmed + (if cancelled == Bool(false) then 1 else 0));
      i := i + 1;
    }
    assert items[..i] == items;
  }

  /** `GET()` over the log file. */
  method HandleGet(file: LogFile) returns (r: Response)
    // A missing file is an empty, successful log.
    ensures file.Missing? ==> r == Response(true, [], ZERO_STATS)
    // Any failure answers with zero statistics and no entries.
    ensures !r.success ==> r.accidents == [] && r.stats == ZERO_STATS
    ensures file.Unreadable? || file.NotArray? ==> !r.success
    ensures file.Entries? ==>
      (r.success <==> forall i :: 0 <= i < |file.items| ==> !Throws(file.items[i]))
    ensures file.Entries? && r.success ==>
      && r.accidents == file.items
      && r.stats.total == |file.items|
      && r.stats.highSeverity + r.stats.lowSeverity <= r.stats.total
      && r.stats.falseAlarms + r.stats.confirmed <= r.stats.total
      && r.stats.highSeverity == CountEqual(file.items, "severity", Str("high"))
      && r.stats.lowSeverity == CountEqual(file.items, "severity", Str("low"))
      && r.stats.falseAlarms == CountEqual(file.items, "isCancelled", Bool(true))
      && r.stats.confirmed == CountEqual(file.items, "isCancelled", Bool(false))
  {
    match file
    case Missing =>
      return Response(true, [], ZERO_STATS);
    case Unreadable =>
      return Response(false, [], ZERO_STATS);
    case NotArray =>
      return Response(false, [], ZERO_STATS);
    case Entries(items) =>
      if exists i :: 0 <= i < |items| && Throws(items[i]) {
        return Response(false, [], ZERO_STATS);
      }
      var s := ComputeStats(items);
      DisjointCounts(items, "severity", Str("high"), Str("low"));
      DisjointCounts(items, "isCancelled", Bool(true), Bool(false));
      return Response(true, items, s);
  }

  /** An entry whose `isCancelled` is missing or not a boolean is neither a false alarm nor confirmed. */
  lemma UnflaggedInNeither(items: seq<Value>, x: Value)
    requires Field(x, "isCancelled") != Bool(true) && Field(x, "isCancelled") != Bool(false)
    ensures CountEqual(items + [x], "isCancelled", Bool(true)) == CountEqual(items, "isCancelled", Bool(true))
    ensures CountEqual(items + [x], "isCancelled", Bool(false)) == CountEqual(items, "isCancelled", Bool(false))
  {
    assert (items + [x])[..|items|] == items;
  }
}

=== FILE: accidents_store.dfy ===
/**
  The dashboard's in-memory accident store, smart-helmet-dashboard/lib/accidents-store.ts:
  a newest-first list of at most 50 records and its three read-only views
  (alerts with a 24-hour activity flag, the active count, notifications).
  The module-level array is passed in and returned; `new Date()` is the
  explicit `now` in milliseconds. Display strings produced by `toFixed` and
  `toLocaleString` are kept as the values they format.
 */
module AccidentsStore {

  const CAPACITY: nat := 50
  const HOUR_MS: nat := 3600000
  const ACTIVE_HOURS: nat := 24

  /** A sensor reading shown on the dashboard: a measured value, or a preset text when none was measured. */
  datatype Reading = Measured(value: real) | Preset(text: string)

  datatype Sensors = Sensors(
    gyroX: Reading, gyroY: Reading, gyroZ: Reading,
    accelX: Reading, accelY: Reading, accelZ: Reading,
    tiltAngle: Reading, impactForce: Reading)

  /** `AccidentData`; `timestampMs` is `timestampDate.getTime()`. */
  datatype Accident = Accident(
    id: string,
    riderName: string,
    helmetId: string,
    timestampMs: int,
    latitude: real,
    longitude: real,
    severity: string,
    sensors: Sensors,
    isCancelled: bool)

  type Store = seq<Accident>

  const Empty: Store := []

  function Min(a: nat, b: nat): nat {
    if a <= b then a else b
  }

  /** `addAccident(accident)`: newest first, and the oldest beyond 50 dropped. */
  function AddAccident(store: Store, a: Accident): (s': Store)
    ensures |s'| == Min(|store| + 1, CAPACITY)
    ensures s'[0] == a
    ensures s'[1..] == store[..Min(|store|, CAPACITY - 1)]
  {
    var s := [a] + store;
    if |s| > CAPACITY then s[..CAPACITY] else s
  }

  /** The first `n` records, or all of them when there are fewer. */
  function Take(s: Store, n: nat): (r: Store)
    ensures |r| == Min(|s|, n) && r == s[..|r|]
  {
    if |s| <= n then s else s[..n]
  }

  function Reverse(s: Store): (r: Store)
    ensures |r| == |s|
    ensures forall i :: 0 <= i < |s| ==> r[i] == s[|s| - 1 - i]
  {
    if |s| == 0 then [] else Reverse(s[1..]) + [s[0]]
  }

  /** Adds the accidents in arrival order. */
  function AddAll(store: Store, batch: seq<Accident>): Store
    decreases |batch|
  {
    if |batch| == 0 then store else AddAll(AddAccident(store, batch[0]), batch[1..])
  }

  /**
    Whatever arrives, the store holds the 50 newest records overall, newest first:
    the batch in reverse arrival order, then the old contents.
   */
  lemma {:induction false} AddAllKeepsNewest(store: Store, batch: seq<Accident>)
    requires |store| <= CAPACITY
    ensures AddAll(store, batch) == Take(Reverse(batch) + store, CAPACITY)
    decreases |batch|
  {
    if |batch| > 0 {
      var s1 := AddAccident(store, batch[0]);
      AddAllKeepsNewest(s1, batch[1..]);
      var rb := Reverse(batch[1..]);
      assert Reverse(batch) == rb + [batch[0]];
      assert s1 == Take([batch[0]] + store, CAPACITY);
      var lhs := Take(rb + s1, CAPACITY);
      var rhs := Take(Reverse(batch) + store, CAPACITY);
      assert rb + [batch[0]] + store == rb + ([batch[0]] + store);
      assert |lhs| == |rhs|;
      forall i | 0 <= i < |lhs|
        ensures lhs[i] == rhs[i]
      {
        if i >= |rb| {
          assert lhs[i] == s1[i - |rb|];
          assert rhs[i] == ([batch[0]] + store)[i - |rb|];
        }
      }
    }
  }

  /** The store never holds more than 50 records. */
  lemma {:induction false} AddAllBounded(store: Store, batch: seq<Accident>)
    requires |store| <= CAPACITY
    ensures |AddAll(store, batch)| <= CAPACITY
    decreases |batch|
  {
    if |batch| > 0 {
      AddAllBounded(AddAccident(store, batch[0]), batch[1..]);
    }
  }

  /** `getAccidents()`: a copy, equal to the store, which is left as it was. */
  function GetAccidents(store: Store): (r: Store)
    ensures |r| == |store| && forall i :: 0 <= i < |r| ==> r[i] == store[i]
  {
    store[..]
  }

  /** An entry of `getAlerts()`. */
  datatype Alert = Alert(
    id: string, riderName: string, helmetId: string, timestampMs: int,
    latitude: real, longitude: real, severity: string, isCancelled: bool,
    isActive: bool, hoursSinceAccident: int)

  /** True when fewer than 24 hours have passed since the accident at `now`. */
  predicate IsActive(a: Accident, now: int) {
    now - a.timestampMs < ACTIVE_HOURS * HOUR_MS
  }

  function AlertOf(a: Accident, now: int): Alert {
    var hours := (now - a.timestampMs) as real / HOUR_MS as real;
    Alert(a.id, a.riderName, a.helmetId, a.timestampMs, a.latitude, a.longitude,
          a.severity, a.isCancelled, hours < ACTIVE_HOURS as real, hours.Floor)
  }

  /** `getAlerts()` at `now`: one alert per record, in store order. */
  function GetAlerts(store: Store, now: int): (r: seq<Alert>)
    ensures |r| == |store|
    ensures forall i :: 0 <= i < |r| ==>
      && r[i].id == store[i].id && r[i].severity == store[i].severity
      && r[i].isCancelled == store[i].isCancelled && r[i].timestampMs == store[i].timestampMs
      && (r[i].isActive <==> IsActive(store[i], now))
      && r[i].hoursSinceAccident * HOUR_MS <= now - store[i].timestampMs
      && now - store[i].timestampMs < (r[i].hoursSinceAccident + 1) * HOUR_MS
  {
    seq(|store|, i requires 0 <= i < |store| => AlertOf(store[i], now))
  }

  /** The number of records still active at `now`, counted from the back. */
  function ActiveCount(store: Store, now: int): (n: nat)
    ensures n <= |store|
  {
    if |store| == 0 then 0
    else ActiveCount(store[..|store| - 1], now) + (if IsActive(store[|store| - 1], now) then 1 else 0)
  }

  /** `getActiveAlertsCount()` at `now`: the active alerts, never more than the records. */
  method GetActiveAlertsCount(store: Store, now: int) returns (n: nat)
    ensures n == ActiveCount(store, now)
    ensures n <= |store|
    ensures n == |store| <==> forall i :: 0 <= i < |store| ==> IsActive(store[i], now)
  {
    var alerts := GetAlerts(store, now);
    n := 0;
    var i := 0;
    while i < |alerts|
      invariant 0 <= i <= |alerts|
      invariant n == ActiveCount(store[..i], now)
      invariant n == i <==> forall j :: 0 <= j < i ==> IsActive(store[j], now)
    {
      assert store[..i + 1][..i] == store[..i];
      if alerts[i].isActive {
        n := n + 1;
      }
      i := i + 1;
    }
    assert store[..i] == store;
  }

  /** The kind of a notification. */
  datatype Kind = Crash | FalseAlarm | Notice

  /** An entry of `getNotifications()`; the fixed channel status block is left out. */
  datatype Notification = Notification(
    id: string, kind: Kind, title: string, message: string,
    timestampMs: int, read: bool, severity: string)

  const CRASH_TITLE := "\U{1F6A8} High Severity Crash Detected"
  const CANCELLED_TITLE := "⚠️ Impact Detected - SOS Cancelled"

  function NotificationOf(a: Accident): Notification {
    var high := a.severity == "high";
    Notification(
      a.id,
      if high then Crash else if a.isCancelled then FalseAlarm else Notice,
      if high then CRASH_TITLE else CANCELLED_TITLE,
      if high then "No response from " + a.riderName + ". Emergency services may be needed."
      else a.riderName + " cancelled the SOS alert. Minor impact detected.",
      a.timestampMs, false, a.severity)
  }

  /** `getNotifications()`: one unread notification per record, in store order. */
  function GetNotifications(store: Store): (r: seq<Notification>)
    ensures |r| == |store|
    ensures forall i :: 0 <= i < |r| ==>
      && r[i].id == store[i].id && !r[i].read
      && (r[i].kind == Crash <==> store[i].severity == "high")
      && (r[i].kind == FalseAlarm <==> store[i].severity != "high" && store[i].isCancelled)
      && (r[i].kind == Notice <==> store[i].severity != "high" && !store[i].isCancelled)
      && (r[i].title == CRASH_TITLE <==> r[i].kind == Crash)
  {
    seq(|store|, i requires 0 <= i < |store| => NotificationOf(store[i]))
  }

  /** `clearAccidents()`: the store is emptied, so every view is empty. */
  function ClearAccidents(store: Store): (s': Store)
    ensures s' == Empty
    ensures GetAlerts(s', 0) == [] && GetNotifications(s') == [] && ActiveCount(s', 0) == 0
  {
    []
  }

  /** A record added at `now` is the first alert and counts as active for the next 24 hours. */
  lemma NewAccidentIsActiveAlert(store: Store, a: Accident, now: int)
    requires now <= a.timestampMs + ACTIVE_HOURS * HOUR_MS - 1
    ensures var alerts := GetAlerts(AddAccident(store, a), now);
      |alerts| >= 1 && alerts[0].id == a.id && alerts[0].isActive
  {
  }
}

=== FILE: alert_service.dfy ===
/**
  Severity classification and the accident log of helmet-server/services/alertService.js.
  The log (a JSON file, optionally mirrored to MongoDB) is an append-only sequence of
  records; the `loggedAt` ISO time stamp is supplied by the caller's clock.
 */
module AlertService {
  import opened Json

  /** The fields `classifyAccident` writes over the accident it is given. */
  const ClassifiedFields: set<string> := {"severity", "status", "responseTime", "userResponse"}

  /** `logAccident`: the record plus its `loggedAt` stamp goes to the end of the log. */
  function LogAccident(log: seq<Record>, accident: Record, loggedAt: string): (log': seq<Record>)
    ensures |log'| == |log| + 1
    ensures log'[..|log|] == log
    ensures log'[|log|].Keys == accident.Keys + {"loggedAt"}
    ensures log'[|log|]["loggedAt"] == Str(loggedAt)
    ensures forall k :: k in accident && k != "loggedAt" ==> log'[|log|][k] == accident[k]
    ensures forall k :: k != "loggedAt" ==> Get(log'[|log|], k) == Get(accident, k)
  {
    log + [accident["loggedAt" := Str(loggedAt)]]
  }

  /** Severity and status for a user response; anything unrecognised leaves both undefined. */
  function Classification(userResponse: Value): (Value, Value) {
    if userResponse == Str("CANCELLED") then
      (Str("FALSE_ALARM"), Str("User confirmed they are okay"))
    else if userResponse == Str("NO_RESPONSE") then
      (Str("HIGH"), Str("No response from user - Emergency!"))
    else
      (Undefined, Undefined)
  }

  datatype Classified = Classified(accident: Record, log: seq<Record>)

  /**
    `classifyAccident(accidentData, userResponse)`: the accident spread with severity,
    status, response time and the response itself, logged once and returned.
   */
  function ClassifyAccident(log: seq<Record>, accident: Record, userResponse: Value,
                            now: nat, loggedAt: string): (r: Classified)
    ensures r.accident.Keys == accident.Keys + ClassifiedFields
    ensures forall k :: k in accident && k !in ClassifiedFields ==> r.accident[k] == accident[k]
    ensures r.accident["userResponse"] == userResponse
    ensures r.accident["responseTime"] == Num(now as real)
    ensures userResponse == Str("CANCELLED") ==>
      r.accident["severity"] == Str("FALSE_ALARM")
      && r.accident["status"] == Str("User confirmed they are okay")
    ensures userResponse == Str("NO_RESPONSE") ==>
      r.accident["severity"] == Str("HIGH")
      && r.accident["status"] == Str("No response from user - Emergency!")
    ensures userResponse != Str("CANCELLED") && userResponse != Str("NO_RESPONSE") ==>
      r.accident["severity"] == Undefined && r.accident["status"] == Undefined
    ensures |r.log| == |log| + 1 && r.log[..|log|] == log
    ensures r.log[|log|] == r.accident["loggedAt" := Str(loggedAt)]
  {
    var (severity, status) := Classification(userResponse);
    var classified := accident["severity" := severity]["status" := status]
                              ["responseTime" := Num(now as real)]["userResponse" := userResponse];
    Classified(classified, LogAccident(log, classified, loggedAt))
  }

  /** Classifying twice logs twice, in call order, and never rewrites an earlier entry. */
  lemma ClassifyAppendsInOrder(log: seq<Record>, a: Record, b: Record, ra: Value, rb: Value,
                               t1: nat, t2: nat, s1: string, s2: string)
    ensures var first := ClassifyAccident(log, a, ra, t1, s1);
      var second := ClassifyAccident(first.log, b, rb, t2, s2);
      |second.log| == |log| + 2 && second.log[..|log|] == log
      && second.log[|log|]["userResponse"] == ra && second.log[|log| + 1]["userResponse"] == rb
  {
    var first := ClassifyAccident(log, a, ra, t1, s1);
    var second := ClassifyAccident(first.log, b, rb, t2, s2);
    assert second.log[..|log|] == first.log[..|log|];
  }
}

=== FILE: button.dfy ===
/**
  The cancel button's debouncer and falling-edge detector, `buttonPressed()` of
  SmartHelmet/button.cpp. The button is wired with a pull-up, so HIGH means
  released and LOW means pressed. Each call reads `millis()` once and the pin
  once; both are the explicit `now` and `reading` (true for HIGH).

  As written, the debounce timer is restarted whenever the reading differs from
  the debounced state, and the debounced state is only assigned once 50 ms have
  passed since that restart. Within one call the two cannot both happen, so the
  debounced state is only ever assigned the value it already holds: it stays
  HIGH and the function never reports a press. `ButtonPressed` models the code
  as written and `NeverFiresAsWritten` shows the consequence. `Debounced` is
  the evidently intended debouncer, which restarts the timer when the raw
  reading changes, using the file's otherwise unused `lastButtonState`;
  `HeldPressFires` proves that it reports a press held for more than 50 ms.
 */
module Button {

  const HIGH: bool := true
  const LOW: bool := false
  const DEBOUNCE_DELAY_MS: nat := 50

  /** `lastButtonState`, `lastDebounceTime` and the two function-local statics. */
  datatype Button = Button(lastReading: bool, lastDebounceTime: nat, stable: bool, lastStable: bool)

  /** Power-up values: released, timer at zero. */
  const Initial := Button(HIGH, 0, HIGH, HIGH)

  datatype Press = Press(button: Button, pressed: bool)

  /** The shared tail of both versions: report a HIGH-to-LOW change of the debounced state. */
  function FallingEdge(b: Button): (r: Press)
    ensures r.pressed <==> b.lastStable == HIGH && b.stable == LOW
    ensures r.button == b.(lastStable := b.stable)
  {
    if b.lastStable == HIGH && b.stable == LOW then Press(b.(lastStable := b.stable), true)
    else Press(b.(lastStable := b.stable), false)
  }

  /** `buttonPressed()` as written, at `now` with pin level `reading`. */
  function ButtonPressed(b: Button, now: nat, reading: bool): (r: Press)
    ensures r.button.lastStable == r.button.stable
    ensures r.pressed <==> b.lastStable == HIGH && r.button.stable == LOW
    // A reading that differs from the debounced state restarts the timer.
    ensures reading != b.stable ==> r.button.lastDebounceTime == now
    // The debounced state changes only when more than 50 ms have passed since the last restart.
    ensures r.button.stable != b.stable ==> now - r.button.lastDebounceTime > DEBOUNCE_DELAY_MS
  {
    var timer := if reading != b.stable then now else b.lastDebounceTime;
    var stable := if now - timer > DEBOUNCE_DELAY_MS then reading else b.stable;
    FallingEdge(b.(lastDebounceTime := timer, stable := stable))
  }

  /** As written, one call never changes the debounced state. */
  lemma StableNeverChanges(b: Button, now: nat, reading: bool)
    ensures ButtonPressed(b, now, reading).button.stable == b.stable
  {
  }

  /** A call at a time and pin level. */
  datatype Poll = Poll(now: nat, reading: bool)

  /** Calls `buttonPressed()` as written for each poll; returns the final state and every result. */
  function PollAll(b: Button, polls: seq<Poll>): (Button, seq<bool>)
    decreases |polls|
  {
    if |polls| == 0 then (b, [])
    else
      var r := ButtonPressed(b, polls[0].now, polls[0].reading);
      var (b', rest) := PollAll(r.button, polls[1..]);
      (b', [r.pressed] + rest)
  }

  /** As written, from power-up, no sequence of polls ever reports a press. */
  lemma {:induction false} NeverFiresAsWritten(b: Button, polls: seq<Poll>)
    requires b.stable == HIGH && b.lastStable == HIGH
    ensures PollAll(b, polls).0.stable == HIGH
    ensures forall i :: 0 <= i < |PollAll(b, polls).1| ==> !PollAll(b, polls).1[i]
    decreases |polls|
  {
    if |polls| > 0 {
      var r := ButtonPressed(b, polls[0].now, polls[0].reading);
      NeverFiresAsWritten(r.button, polls[1..]);
    }
  }

  /** The concrete case: the button held down for a full second from power-up is never reported. */
  lemma HeldPressIgnoredAsWritten()
    ensures var r1 := ButtonPressed(Initial, 1000, LOW);
      var r2 := ButtonPressed(r1.button, 2000, LOW);
      !r1.pressed && !r2.pressed && r2.button.stable == HIGH
  {
  }

  /** The intended debouncer: the timer restarts when the raw reading changes. */
  function Debounced(b: Button, now: nat, reading: bool): (r: Press)
    ensures r.button.lastStable == r.button.stable && r.button.lastReading == reading
    ensures r.pressed <==> b.lastStable == HIGH && r.button.stable == LOW
    ensures reading != b.lastReading ==> r.button.lastDebounceTime == now
    ensures r.button.stable != b.stable ==>
      r.button.stable == reading && now - r.button.lastDebounceTime > DEBOUNCE_DELAY_MS
  {
    var timer := if reading != b.lastReading then now else b.lastDebounceTime;
    var stable := if now - timer > DEBOUNCE_DELAY_MS then reading else b.stable;
    FallingEdge(b.(lastReading := reading, lastDebounceTime := timer, stable := stable))
  }

  /**
    With the intended debouncer, a press first seen at `t0` and still held at a
    poll more than 50 ms later is reported there, and only there.
   */
  lemma HeldPressFires(b: Button, t0: nat, t1: nat)
    requires b.lastReading == HIGH && b.stable == HIGH && b.lastStable == HIGH
    requires t1 > t0 + DEBOUNCE_DELAY_MS
    ensures var r0 := Debounced(b, t0, LOW);
      var r1 := Debounced(r0.button, t1, LOW);
      !r0.pressed && r1.pressed && r1.button.stable == LOW
  {
  }

  /** A bounce shorter than 50 ms is not reported by the intended debouncer. */
  lemma ShortBounceIgnored(b: Button, t0: nat, t1: nat)
    requires b.lastReading == HIGH && b.stable == HIGH && b.lastStable == HIGH
    requires t0 <= t1 <= t0 + DEBOUNCE_DELAY_MS
    ensures var r0 := Debounced(b, t0, LOW);
      var r1 := Debounced(r0.button, t1, LOW);
      !r0.pressed && !r1.pressed
  {
  }

  /** Two consecutive calls never both report a press: the first leaves the debounced state LOW. */
  lemma NoDoublePress(b: Button, t1: nat, t2: nat, x1: bool, x2: bool)
    ensures var r1 := Debounced(b, t1, x1);
      !(r1.pressed && Debounced(r1.button, t2, x2).pressed)
    ensures var r1 := ButtonPressed(b, t1, x1);
      !(r1.pressed && ButtonPressed(r1.button, t2, x2).pressed)
  {
  }
}

=== FILE: cancel_timer.dfy ===
/**
  The confirmation countdown of helmet-sensor-app/components/CancelButton.tsx
  (the mount effect with its `updateTimer` tick, its clean-up, and
  `handleCancel`). Remaining time is always recomputed from the recorded start
  time; each tick that has not expired schedules one more tick 100 ms later.
  `Date.now()` is the explicit `now` in milliseconds; React rendering is left out.
 */
module CancelTimer {
  import opened Wrappers

  const DEFAULT_DURATION_S: nat := 10
  const TICK_MS: nat := 100

  datatype Timer = Timer(
    duration: nat,        // seconds
    startTime: nat,       // startTimeRef.current
    active: bool,         // isActiveRef.current
    scheduled: bool,      // timeoutRef.current is set (it is never reset to null)
    timeLeft: int)        // the displayed seconds

  datatype Effect =
    | Display(seconds: int)   // setTimeLeft
    | ScheduleTick(at: nat)   // setTimeout(updateTimer, 100)
    | ClearScheduled          // clearTimeout(timeoutRef.current)
    | Timeout                 // onTimeout()
    | Cancel                  // onCancel()

  datatype Step = Step(timer: Timer, effects: seq<Effect>)

  /** Math.ceil on reals. */
  function Ceil(x: real): (n: int)
    ensures n as real >= x && (n as real) - 1.0 < x
  {
    -((-x).Floor)
  }

  function Max(a: real, b: real): real {
    if a >= b then a else b
  }

  /** Seconds left at `now`: never negative, recomputed from the start time. */
  function Remaining(t: Timer, now: nat): real {
    Max(0.0, t.duration as real - ((now - t.startTime) as real / 1000.0))
  }

  /** True when the countdown has run out at `now`. */
  predicate Expired(t: Timer, now: nat) {
    now - t.startTime >= t.duration * 1000
  }

  /** `updateTimer()` at `now`. */
  function Tick(t: Timer, now: nat): (r: Step)
    ensures !t.active ==> r == Step(t, [])
    ensures t.active ==> r.timer.active && |r.effects| == 2 && r.effects[0] == Display(r.timer.timeLeft)
    ensures t.active && t.startTime <= now ==> 0 <= r.timer.timeLeft <= t.duration
    ensures t.active ==> (r.effects[1] == Timeout <==> Expired(t, now))
    ensures t.active && !Expired(t, now) ==> r.effects[1] == ScheduleTick(now + TICK_MS) && r.timer.scheduled
    ensures Timeout in r.effects ==> t.active && Expired(t, now)
  {
    if !t.active then Step(t, [])
    else
      var remaining := Remaining(t, now);
      var shown := Ceil(remaining);
      if remaining <= 0.0 then
        Step(t.(timeLeft := shown), [Display(shown), Timeout])
      else
        Step(t.(timeLeft := shown, scheduled := true), [Display(shown), ScheduleTick(now + TICK_MS)])
  }

  /** The effect of mounting with `duration` seconds (10 when the prop is absent), ticking once at once. */
  function Mount(duration: Option<nat>, now: nat): (r: Step)
    ensures r.timer.startTime == now && r.timer.active
    ensures r.timer.duration == duration.GetOr(DEFAULT_DURATION_S)
    ensures |r.effects| == 2 && r.effects[0] == Display(r.timer.duration)
  {
    var d := duration.GetOr(DEFAULT_DURATION_S);
    Tick(Timer(d, now, true, false, d), now)
  }

  /** The effect's clean-up on unmount. */
  function Unmount(t: Timer): (r: Step)
    ensures !r.timer.active
    ensures r.effects == (if t.scheduled then [ClearScheduled] else [])
  {
    Step(t.(active := false), if t.scheduled then [ClearScheduled] else [])
  }

  /** `handleCancel()`: the timer is switched off before `onCancel` runs, and `onCancel` runs once. */
  function HandleCancel(t: Timer): (r: Step)
    ensures !r.timer.active
    ensures |r.effects| >= 1 && r.effects[|r.effects| - 1] == Cancel
    ensures Cancel !in r.effects[..|r.effects| - 1] && Timeout !in r.effects
  {
    Step(t.(active := false),
         (if t.scheduled then [ClearScheduled] else []) + [Cancel])
  }

  /** The countdown never counts down: what a tick shows depends only on the start time, not on the last display. */
  lemma TickIgnoresLastDisplay(t: Timer, now: nat, shown: int)
    requires t.active
    ensures Tick(t.(timeLeft := shown), now).effects == Tick(t, now).effects
  {
  }

  /** Ticks at the given times, in order. */
  function Ticks(t: Timer, times: seq<nat>): Step
    decreases |times|
  {
    if |times| == 0 then Step(t, [])
    else
      var first := Tick(t, times[0]);
      var rest := Ticks(first.timer, times[1..]);
      Step(rest.timer, first.effects + rest.effects)
  }

  /** Once cancelled or unmounted, no later tick does anything, so the timeout can never fire. */
  lemma {:induction false} InactiveNeverTimesOut(t: Timer, times: seq<nat>)
    requires !t.active
    ensures Ticks(t, times) == Step(t, [])
    decreases |times|
  {
    if |times| > 0 {
      InactiveNeverTimesOut(t, times[1..]);
    }
  }

  /** After `handleCancel` or unmounting, whatever ticks still arrive, `onTimeout` is never called. */
  lemma NoTimeoutAfterCancel(t: Timer, times: seq<nat>, unmount: bool)
    ensures var s := if unmount then Unmount(t).timer else HandleCancel(t).timer;
      Timeout !in Ticks(s, times).effects
  {
    var s := if unmount then Unmount(t).timer else HandleCancel(t).timer;
    InactiveNeverTimesOut(s, times);
  }

  /** With the default duration, a tick 9.95 s after mounting still shows 1 and reschedules; at 10 s it times out. */
  lemma DefaultCountdownEnds(t0: nat)
    ensures var m := Mount(None, t0).timer;
      Tick(m, t0 + 9950).effects == [Display(1), ScheduleTick(t0 + 9950 + TICK_MS)]
      && Tick(m, t0 + 10000).effects == [Display(0), Timeout]
  {
    var m := Mount(None, t0).timer;
    assert Remaining(m, t0 + 9950) == 0.05;
    assert Ceil(0.05) == 1;
    assert Remaining(m, t0 + 10000) == 0.0;
    assert Ceil(0.0) == 0;
  }
}

=== FILE: crash_detector.dfy ===
/**
  The device's decaying crash-confidence detector, SmartHelmet/crash_detector.cpp,
  with its thresholds from SmartHelmet/config.h. The acceleration magnitude and
  the pitch and roll angles are inputs; `millis()` is the explicit `now`.
 */
module CrashDetector {

  // config.h
  const ACCEL_CRASH_G: real := 4.5
  const HARD_IMPACT_G: real := 3.5
  const TILT_THRESHOLD_DEG: real := 60.0

  // crash_detector.cpp
  const CONFIDENCE_DECAY: real := 0.85
  const CONFIDENCE_TRIGGER: real := 0.7
  const CRASH_COOLDOWN_MS: nat := 3000

  datatype Detector = Detector(confidence: real, cooldownUntil: nat)

  const Initial := Detector(0.0, 0)

  predicate Valid(d: Detector) {
    0.0 <= d.confidence <= 1.0
  }

  datatype Detection = Detection(detector: Detector, detected: bool)

  function Abs(x: real): real {
    if x < 0.0 then -x else x
  }

  /** Arduino's `constrain(x, lo, hi)`. */
  function Constrain(x: real, lo: real, hi: real): (r: real)
    requires lo <= hi
    ensures lo <= r <= hi
    ensures lo <= x <= hi ==> r == x
  {
    if x < lo then lo else if x > hi then hi else x
  }

  predicate Tilted(pitch: real, roll: real) {
    Abs(pitch) > TILT_THRESHOLD_DEG || Abs(roll) > TILT_THRESHOLD_DEG
  }

  /** The confidence after one sample, outside the cooldown. */
  function NextConfidence(previous: real, a: real, pitch: real, roll: real): (c: real)
    ensures 0.0 <= c <= 1.0
    ensures a > HARD_IMPACT_G ==> c == 1.0
    // Below a hard impact the crash-level bonus cannot apply: only decay and the tilt bonus remain.
    ensures a <= HARD_IMPACT_G ==>
      c == Constrain(previous * CONFIDENCE_DECAY + (if Tilted(pitch, roll) then 0.4 else 0.0), 0.0, 1.0)
  {
    var c0 := previous * CONFIDENCE_DECAY;
    var c1 := if a > ACCEL_CRASH_G then c0 + 0.4 else c0;
    var c2 := if Tilted(pitch, roll) then c1 + 0.4 else c1;
    var c3 := if a > HARD_IMPACT_G then 1.0 else c2;
    Constrain(c3, 0.0, 1.0)
  }

  /** `crashCandidateDetected()` on a sample taken at `now`. */
  function CrashCandidateDetected(d: Detector, now: nat, a: real, pitch: real, roll: real): (r: Detection)
    ensures now < d.cooldownUntil ==> r == Detection(d, false)
    ensures now >= d.cooldownUntil ==> Valid(r.detector)
    ensures Valid(d) ==> Valid(r.detector)
    ensures r.detector.cooldownUntil == d.cooldownUntil
    ensures now >= d.cooldownUntil ==> r.detector == d.(confidence := NextConfidence(d.confidence, a, pitch, roll))
    ensures r.detected <==> now >= d.cooldownUntil && r.detector.confidence >= CONFIDENCE_TRIGGER
    ensures now >= d.cooldownUntil && a > HARD_IMPACT_G ==> r.detected && r.detector.confidence == 1.0
  {
    if now < d.cooldownUntil then Detection(d, false)
    else
      var c := NextConfidence(d.confidence, a, pitch, roll);
      Detection(d.(confidence := c), c >= CONFIDENCE_TRIGGER)
  }

  /** `getCrashConfidence()`: always a probability for a detector that started valid. */
  function GetCrashConfidence(d: Detector): (c: real)
    requires Valid(d)
    ensures 0.0 <= c <= 1.0
  {
    d.confidence
  }

  /** `resetCrashDetector()` at `now`: the score restarts at zero behind a 3 s cooldown. */
  function ResetCrashDetector(d: Detector, now: nat): (d': Detector)
    ensures Valid(d') && d'.confidence == 0.0
    ensures d'.cooldownUntil == now + CRASH_COOLDOWN_MS
  {
    Detector(0.0, now + CRASH_COOLDOWN_MS)
  }

  /** For 3 s after a reset every sample is ignored. */
  lemma ResetSilencesDetector(d: Detector, t: nat, now: nat, a: real, pitch: real, roll: real)
    requires t <= now < t + CRASH_COOLDOWN_MS
    ensures var d' := ResetCrashDetector(d, t);
      CrashCandidateDetected(d', now, a, pitch, roll) == Detection(d', false)
  {
  }

  /** The hard-impact limit sits below the crash limit, so every crash-level impact is a hard impact. */
  lemma CrashLevelIsHardImpact(d: Detector, now: nat, a: real, pitch: real, roll: real)
    requires now >= d.cooldownUntil && a > ACCEL_CRASH_G
    ensures CrashCandidateDetected(d, now, a, pitch, roll).detected
    ensures CrashCandidateDetected(d, now, a, pitch, roll).detector.confidence == 1.0
  {
  }

  /** A quiet sample only decays the score, and then fires exactly when 0.85 of the old score reaches 0.7. */
  lemma QuietSampleDecays(d: Detector, now: nat, a: real, pitch: real, roll: real)
    requires Valid(d) && now >= d.cooldownUntil
    requires a <= HARD_IMPACT_G && !Tilted(pitch, roll)
    ensures var r := CrashCandidateDetected(d, now, a, pitch, roll);
      r.detector.confidence == CONFIDENCE_DECAY * d.confidence
      && (r.detected <==> CONFIDENCE_DECAY * d.confidence >= CONFIDENCE_TRIGGER)
  {
  }

  /** From a zero score, one tilt-only sample gives 0.4 and does not fire; a second gives 0.74 and fires. */
  lemma TwoTiltSamplesFire(d: Detector, t1: nat, t2: nat, pitch1: real, roll1: real, pitch2: real, roll2: real,
                           a1: real, a2: real)
    requires d.confidence == 0.0 && d.cooldownUntil <= t1 <= t2
    requires a1 <= HARD_IMPACT_G && a2 <= HARD_IMPACT_G
    requires Tilted(pitch1, roll1) && Tilted(pitch2, roll2)
    ensures var r1 := CrashCandidateDetected(d, t1, a1, pitch1, roll1);
      var r2 := CrashCandidateDetected(r1.detector, t2, a2, pitch2, roll2);
      && r1.detector.confidence == 0.4 && !r1.detected
      && r2.detector.confidence == 0.74 && r2.detected
  {
  }
}

=== FILE: data_logger.dfy ===
/**
  The device's CSV training-data logger, SmartHelmet/data_logger.cpp: a session
  is started with a label, every accepted IMU sample becomes one CSV row on the
  serial port, and stopping reports how many rows were written. Serial lines
  are output values; the float formatting of `Serial.print(x, 4)` is kept as the
  value and its number of decimals. `millis()` is the explicit `now`.
 */
module DataLogger {
  import opened Text

  const SAMPLE_INTERVAL_MS: nat := 20

  const ERROR_ALREADY_COLLECTING := "DATA_LOGGER:ERROR:Already collecting"
  const ERROR_NOT_COLLECTING := "DATA_LOGGER:ERROR:Not collecting"
  const START_PREFIX := "DATA_LOGGER:START:"
  const STOP_PREFIX := "DATA_LOGGER:STOP:Samples="

  /** The column names of the CSV header, in order. */
  const HEADER_FIELDS: seq<string> :=
    ["timestamp_ms", "ax", "ay", "az", "gx", "gy", "gz", "pitch", "roll", "label"]

  /** Joins the strings with commas between them. */
  function JoinCommas(parts: seq<string>): string
    decreases |parts|
  {
    if |parts| == 0 then ""
    else if |parts| == 1 then parts[0]
    else parts[0] + "," + JoinCommas(parts[1..])
  }

  /** The file's statics. */
  datatype Logger = Logger(collecting: bool, currentLabel: string, sessionStart: nat, count: nat, lastSampleTime: nat)

  /** After `initDataLogger()`. */
  const Initial := Logger(false, "", 0, 0, 0)

  /** One reading of the IMU: raw axes and the filtered angles. */
  datatype Reading = Reading(ax: real, ay: real, az: real, gx: real, gy: real, gz: real, pitch: real, roll: real)

  /** One comma-separated cell of a CSV row. */
  datatype Cell = Millis(ms: int) | Fixed(value: real, decimals: nat) | Label(text: string)

  datatype Line = Message(text: string) | Row(cells: seq<Cell>)

  datatype Step = Step(logger: Logger, lines: seq<Line>)

  /** Outside a session nothing is labelled and nothing is counted. */
  predicate Valid(l: Logger) {
    !l.collecting ==> l.currentLabel == "" && l.count == 0
  }

  /** `startDataCollection(name)` at `now`. */
  function StartDataCollection(l: Logger, name: string, now: nat): (r: Step)
    ensures Valid(l) ==> Valid(r.logger)
    ensures l.collecting ==> r == Step(l, [Message(ERROR_ALREADY_COLLECTING)])
    ensures !l.collecting ==>
      && r.logger.collecting && r.logger.currentLabel == name
      && r.logger.sessionStart == now && r.logger.count == 0 && r.logger.lastSampleTime == 0
      && r.lines == [Message(START_PREFIX + name), Message(JoinCommas(HEADER_FIELDS))]
  {
    if l.collecting then Step(l, [Message(ERROR_ALREADY_COLLECTING)])
    else
      Step(Logger(true, name, now, 0, 0), [Message(START_PREFIX + name), Message(JoinCommas(HEADER_FIELDS))])
  }

  /** `stopDataCollection()`. */
  function StopDataCollection(l: Logger): (r: Step)
    ensures Valid(l) ==> Valid(r.logger)
    ensures !l.collecting ==> r == Step(l, [Message(ERROR_NOT_COLLECTING)])
    ensures l.collecting ==>
      && r.logger == l.(collecting := false, currentLabel := "", count := 0)
      && |r.lines| == 1 && r.lines[0].Message?
      && StartsWith(r.lines[0].text, STOP_PREFIX)
  {
    if !l.collecting then Step(l, [Message(ERROR_NOT_COLLECTING)])
    else Step(l.(collecting := false, currentLabel := "", count := 0), [Message(STOP_PREFIX + NatToString(l.count))])
  }

  /** The number after the stop line's prefix reads back as the session's sample count. */
  lemma StopReportsCount(l: Logger)
    requires l.collecting
    ensures var line := StopDataCollection(l).lines[0].text;
      var digits := line[|STOP_PREFIX|..];
      (forall i :: 0 <= i < |digits| ==> IsDigit(digits[i])) && ParseDigits(digits) == l.count
  {
    var line := StopDataCollection(l).lines[0].text;
    assert line[|STOP_PREFIX|..] == NatToString(l.count);
    ParseNatToString(l.count);
  }

  /** The CSV row for `x`, stamped relative to the session start. */
  function RowFor(l: Logger, now: nat, x: Reading): seq<Cell> {
    [ Millis(now - l.sessionStart),
      Fixed(x.ax, 4), Fixed(x.ay, 4), Fixed(x.az, 4),
      Fixed(x.gx, 4), Fixed(x.gy, 4), Fixed(x.gz, 4),
      Fixed(x.pitch, 2), Fixed(x.roll, 2),
      Label(l.currentLabel) ]
  }

  /** `logSensorSample()` at `now` with reading `x`. */
  function LogSensorSample(l: Logger, now: nat, x: Reading): (r: Step)
    ensures Valid(l) ==> Valid(r.logger)
    ensures !l.collecting ==> r == Step(l, [])
    ensures now - l.lastSampleTime < SAMPLE_INTERVAL_MS ==> r == Step(l, [])
    ensures l.collecting && now - l.lastSampleTime >= SAMPLE_INTERVAL_MS ==>
      && r.logger == l.(lastSampleTime := now, count := l.count + 1)
      && |r.lines| == 1 && r.lines[0].Row?
      && |r.lines[0].cells| == |HEADER_FIELDS|
      && r.lines[0].cells[0] == Millis(now - l.sessionStart)
      && r.lines[0].cells[|HEADER_FIELDS| - 1] == Label(l.currentLabel)
    ensures l.collecting && now - l.lastSampleTime >= SAMPLE_INTERVAL_MS ==>
      r.lines[0].cells[1..9] == [Fixed(x.ax, 4), Fixed(x.ay, 4), Fixed(x.az, 4),
                                 Fixed(x.gx, 4), Fixed(x.gy, 4), Fixed(x.gz, 4),
                                 Fixed(x.pitch, 2), Fixed(x.roll, 2)]
  {
    if !l.collecting then Step(l, [])
    else if now - l.lastSampleTime < SAMPLE_INTERVAL_MS then Step(l, [])
    else Step(l.(lastSampleTime := now, count := l.count + 1), [Row(RowFor(l, now, x))])
  }

  /** A call of `logSensorSample()`. */
  datatype Sample = Sample(now: nat, reading: Reading)

  /** Logs the samples in order; returns the final logger and every line printed. */
  function LogAll(l: Logger, samples: seq<Sample>): Step
    decreases |samples|
  {
    if |samples| == 0 then Step(l, [])
    else
      var first := LogSensorSample(l, samples[0].now, samples[0].reading);
      var rest := LogAll(first.logger, samples[1..]);
      Step(rest.logger, first.lines + rest.lines)
  }

  /** How many CSV rows are among the lines. */
  function Rows(lines: seq<Line>): nat {
    if |lines| == 0 then 0 else (if lines[0].Row? then 1 else 0) + Rows(lines[1..])
  }

  lemma {:induction false} RowsAppend(a: seq<Line>, b: seq<Line>)
    ensures Rows(a + b) == Rows(a) + Rows(b)
  {
    if |a| > 0 {
      assert (a + b)[1..] == a[1..] + b;
      RowsAppend(a[1..], b);
    } else {
      assert a + b == b;
    }
  }

  /** The sample count grows by exactly the number of rows printed; the session itself is untouched. */
  lemma {:induction false} CountMatchesRows(l: Logger, samples: seq<Sample>)
    ensures var r := LogAll(l, samples);
      r.logger.count == l.count + Rows(r.lines)
      && r.logger.collecting == l.collecting && r.logger.currentLabel == l.currentLabel
      && r.logger.sessionStart == l.sessionStart
    decreases |samples|
  {
    if |samples| > 0 {
      var first := LogSensorSample(l, samples[0].now, samples[0].reading);
      CountMatchesRows(first.logger, samples[1..]);
      RowsAppend(first.lines, LogAll(first.logger, samples[1..]).lines);
    }
  }

  /** Start, log, stop: the stop line reports exactly the number of rows the session printed. */
  lemma {:induction false} SessionReportsRows(l: Logger, name: string, t: nat, samples: seq<Sample>)
    requires !l.collecting
    ensures var started := StartDataCollection(l, name, t);
      var logged := LogAll(started.logger, samples);
      StopDataCollection(logged.logger).lines == [Message(STOP_PREFIX + NatToString(Rows(logged.lines)))]
  {
    var started := StartDataCollection(l, name, t);
    CountMatchesRows(started.logger, samples);
  }
}

=== FILE: device_state_machine.dfy ===
/**
  The device's incident state machine, SmartHelmet/state_machine.cpp:
  MONITOR -> PENDING on a detection, then PENDING -> MONITOR either by the
  cancel button or, once the 10 s cancel window has passed, by confirmation.
  One `millis()` reading per call is the explicit `now`; the button level and
  the IMU sample are inputs; LED switching and MQTT publishes are effects.
 */
module DeviceStateMachine {
  import CrashDetector

  const CANCEL_WINDOW_MS: nat := 10000
  const SETTLE_MS: nat := 500

  /** STATE_IDLE is declared by the source but never entered. */
  datatype Mode = Idle | Monitor | Pending

  datatype Machine = Machine(
    mode: Mode,
    crashTime: nat,
    lastStateChange: nat,
    cancelRequested: bool,
    detector: CrashDetector.Detector)

  const Initial := Machine(Monitor, 0, 0, false, CrashDetector.Initial)

  datatype Effect =
    | LedOn
    | LedOff
    | PublishAccidentPending
    | PublishCrashCancelled
    | PublishCrashConfirmed

  /** What the IMU reports in one loop iteration, and the cancel button's level. */
  datatype Input = Input(a: real, pitch: real, roll: real, buttonLow: bool)

  datatype Step = Step(machine: Machine, effects: seq<Effect>)

  /** The MONITOR half of `updateStateMachine()`. */
  function MonitorStep(m: Machine, now: nat, input: Input): (r: Step)
  {
    if m.mode == Monitor && now - m.lastStateChange > SETTLE_MS then
      var det := CrashDetector.CrashCandidateDetected(m.detector, now, input.a, input.pitch, input.roll);
      if det.detected then
        Step(m.(mode := Pending, crashTime := now, lastStateChange := now, detector := det.detector),
             [LedOn, PublishAccidentPending])
      else
        Step(m.(detector := det.detector), [])
    else
      Step(m, [])
  }

  /** The PENDING half of `updateStateMachine()`: cancel is looked at before the timeout. */
  function PendingStep(m: Machine, now: nat, input: Input): (r: Step)
  {
    if m.mode == Pending then
      var cancel := m.cancelRequested || input.buttonLow;
      if cancel then
        Step(m.(mode := Monitor, lastStateChange := now, cancelRequested := false,
                detector := CrashDetector.ResetCrashDetector(m.detector, now)),
             [LedOff, PublishCrashCancelled])
      else if now - m.crashTime > CANCEL_WINDOW_MS then
        Step(m.(mode := Monitor, lastStateChange := now, cancelRequested := false,
                detector := CrashDetector.ResetCrashDetector(m.detector, now)),
             [LedOff, PublishCrashConfirmed])
      else
        Step(m.(cancelRequested := cancel), [])
    else
      Step(m, [])
  }

  /** `updateStateMachine()` at `now`. */
  function Update(m: Machine, now: nat, input: Input): (r: Step)
    ensures !r.machine.cancelRequested || m.cancelRequested
    ensures m.mode == Idle ==> r == Step(m, [])
    // A new incident needs 500 ms since the last change and a firing detector.
    ensures m.mode == Monitor && r.machine.mode == Pending ==>
      && now - m.lastStateChange > SETTLE_MS
      && CrashDetector.CrashCandidateDetected(m.detector, now, input.a, input.pitch, input.roll).detected
      && r.machine.crashTime == now && r.machine.lastStateChange == now
      && r.effects == [LedOn, PublishAccidentPending]
    // Within 500 ms of the last change the detector is not even consulted.
    ensures m.mode == Monitor && now - m.lastStateChange <= SETTLE_MS ==> r == Step(m, [])
    // After 500 ms the detector sees the sample; a quiet sample only advances its state.
    ensures m.mode == Monitor && now - m.lastStateChange > SETTLE_MS ==>
      var det := CrashDetector.CrashCandidateDetected(m.detector, now, input.a, input.pitch, input.roll);
      && (!det.detected ==> r == Step(m.(detector := det.detector), []))
      // A firing detector opens an incident ...
      && (det.detected && !m.cancelRequested && !input.buttonLow ==>
            && r.machine == m.(mode := Pending, crashTime := now, lastStateChange := now, detector := det.detector)
            && r.effects == [LedOn, PublishAccidentPending])
      // ... which the button, already down in the same call, cancels at once.
      && (det.detected && (m.cancelRequested || input.buttonLow) ==>
            && r.machine == m.(mode := Monitor, crashTime := now, lastStateChange := now, cancelRequested := false,
                               detector := CrashDetector.ResetCrashDetector(det.detector, now))
            && r.effects == [LedOn, PublishAccidentPending, LedOff, PublishCrashCancelled])
    // A pending incident is cancelled whenever the button is down, even past the window.
    ensures m.mode == Pending && (m.cancelRequested || input.buttonLow) ==>
      r.machine.mode == Monitor && r.effects == [LedOff, PublishCrashCancelled]
      && r.machine.detector == CrashDetector.ResetCrashDetector(m.detector, now)
      && r.machine.lastStateChange == now && !r.machine.cancelRequested
    // Otherwise it is confirmed exactly when more than 10 s have passed since the crash.
    ensures m.mode == Pending && !(m.cancelRequested || input.buttonLow) ==>
      (r.machine.mode == Monitor <==> now - m.crashTime > CANCEL_WINDOW_MS)
      && (r.machine.mode == Monitor ==>
            r.effects == [LedOff, PublishCrashConfirmed]
            && r.machine.detector == CrashDetector.ResetCrashDetector(m.detector, now)
            && r.machine.lastStateChange == now)
      && (r.machine.mode == Pending ==> r == Step(m, []))
  {
    var s1 := MonitorStep(m, now, input);
    var s2 := PendingStep(s1.machine, now, input);
    Step(s2.machine, s1.effects + s2.effects)
  }

  /** `onExternalAccidentPending()` at `now`: a silent entry into PENDING. */
  function OnExternalAccidentPending(m: Machine, now: nat): (m': Machine)
    ensures m.mode == Monitor ==>
      m' == m.(mode := Pending, crashTime := now, lastStateChange := now)
    ensures m.mode != Monitor ==> m' == m
  {
    if m.mode == Monitor then m.(mode := Pending, crashTime := now, lastStateChange := now) else m
  }

  /** The LED effect of `onExternalAccidentPending()`; no MQTT message is published. */
  function ExternalPendingEffects(m: Machine): (e: seq<Effect>)
    ensures forall x :: x in e ==> x == LedOn
    ensures e != [] <==> m.mode == Monitor
  {
    if m.mode == Monitor then [LedOn] else []
  }

  /** The invariant of every reachable machine: never IDLE, and no cancel request left over. */
  predicate Reachable(m: Machine) {
    m.mode != Idle && !m.cancelRequested
  }

  /** Inputs the loop can receive: an update tick or an external pending notification. */
  datatype Event = Tick(now: nat, input: Input) | External(now: nat)

  function Apply(m: Machine, e: Event): Step {
    match e
    case Tick(now, input) => Update(m, now, input)
    case External(now) => Step(OnExternalAccidentPending(m, now), ExternalPendingEffects(m))
  }

  /** Runs the events in order and returns the final machine with every effect. */
  function Run(m: Machine, events: seq<Event>): Step
    decreases |events|
  {
    if |events| == 0 then Step(m, [])
    else
      var first := Apply(m, events[0]);
      var rest := Run(first.machine, events[1..]);
      Step(rest.machine, first.effects + rest.effects)
  }

  /** Every step keeps the reachability invariant. */
  lemma ApplyKeepsReachable(m: Machine, e: Event)
    requires Reachable(m)
    ensures Reachable(Apply(m, e).machine)
  {
  }

  /** From power-up, whatever happens, the machine is never IDLE and never holds a cancel request. */
  lemma {:induction false} IdleUnreachable(m: Machine, events: seq<Event>)
    requires Reachable(m)
    ensures Reachable(Run(m, events).machine)
    decreases |events|
  {
    if |events| > 0 {
      var first := Apply(m, events[0]);
      ApplyKeepsReachable(m, events[0]);
      IdleUnreachable(first.machine, events[1..]);
    }
  }

  /** Number of resolutions (cancelled or confirmed) among the effects. */
  function Resolutions(effects: seq<Effect>): nat {
    if |effects| == 0 then 0
    else (if effects[0] == PublishCrashCancelled || effects[0] == PublishCrashConfirmed then 1 else 0)
         + Resolutions(effects[1..])
  }

  lemma {:induction false} ResolutionsAppend(a: seq<Effect>, b: seq<Effect>)
    ensures Resolutions(a + b) == Resolutions(a) + Resolutions(b)
  {
    if |a| > 0 {
      assert (a + b)[1..] == a[1..] + b;
      ResolutionsAppend(a[1..], b);
    } else {
      assert a + b == b;
    }
  }

  /**
    One update call resolves at most one incident, and does so exactly when it
    leaves a PENDING machine back in MONITOR; the incident it resolves is the
    one that was open when the call started or the one the call itself opened.
   */
  lemma UpdateResolvesOnce(m: Machine, now: nat, input: Input)
    requires Reachable(m)
    ensures var r := Update(m, now, input);
      var justOpened := MonitorStep(m, now, input).machine.mode == Pending;
      Resolutions(r.effects) == (if (m.mode == Pending || justOpened) && r.machine.mode == Monitor then 1 else 0)
  {
    var s1 := MonitorStep(m, now, input);
    var s2 := PendingStep(s1.machine, now, input);
    ResolutionsAppend(s1.effects, s2.effects);
  }
}

=== FILE: discovery.dfy ===
/**
  The phone app's server discovery, helmet-sensor-app/services/discoveryService.ts:
  a fixed list of gateway addresses, the candidate URLs derived from each, a
  first-match scan over them, and the 10-second give-up rule of the repeating
  timer. Each HTTP probe is an input function from URL to its outcome (one pass
  probes each URL once); `Date.now()` is the explicit `now`.
 */
module Discovery {
  import opened Wrappers
  import opened Json
  import opened Text

  const DISCOVERY_TIMEOUT_MS: int := 10000
  const PORT := "3001"
  const SERVER_MESSAGE := "Helmet Sensor Server"

  const GATEWAYS: seq<string> :=
    ["192.168.1.1", "192.168.0.1", "192.168.43.1", "10.0.0.1", "172.16.0.1", "100.106.213.1"]

  /** The network part of a gateway: everything before its last '.' (nothing when there is none). */
  function BaseIp(gateway: string): (base: string)
    ensures (exists j :: 0 <= j < |gateway| && gateway[j] == '.') ==>
      |base| < |gateway| && gateway[|base|] == '.' && base == gateway[..|base|]
    ensures forall j :: |base| < j < |gateway| ==> gateway[j] != '.'
    ensures (forall j :: 0 <= j < |gateway| ==> gateway[j] != '.') ==> base == ""
  {
    match LastIndexOf(gateway, '.')
    case Some(k) => gateway[..k]
    case None => ""
  }

  /** The highest host number probed: 100 on the `100.` hotspot range, 20 elsewhere. */
  function MaxHost(gateway: string): (n: nat)
    ensures n == 100 <==> StartsWith(gateway, "100.")
    ensures n == 100 || n == 20
  {
    if StartsWith(gateway, "100.") then 100 else 20
  }

  /** The URL probed for host `i` on network `base`. */
  function Url(base: string, i: nat): string {
    "http://" + base + "." + NatToString(i) + ":" + PORT
  }

  /** The URLs of hosts 1..n of a network, in ascending order. */
  function HostUrls(base: string, n: nat): (urls: seq<string>)
    ensures |urls| == n
    ensures forall i :: 0 <= i < n ==> urls[i] == Url(base, i + 1)
  {
    seq(n, i requires 0 <= i < n => Url(base, i + 1))
  }

  /** Every URL one pass probes: gateway by gateway, hosts ascending. */
  function CandidatesOf(gateways: seq<string>): (urls: seq<string>)
    decreases |gateways|
  {
    if |gateways| == 0 then []
    else HostUrls(BaseIp(gateways[0]), MaxHost(gateways[0])) + CandidatesOf(gateways[1..])
  }

  /** The number of candidates is the sum of the host ranges. */
  function TotalHosts(gateways: seq<string>): nat
    decreases |gateways|
  {
    if |gateways| == 0 then 0 else MaxHost(gateways[0]) + TotalHosts(gateways[1..])
  }

  lemma {:induction false} CandidateCount(gateways: seq<string>)
    ensures |CandidatesOf(gateways)| == TotalHosts(gateways)
    decreases |gateways|
  {
    if |gateways| > 0 {
      CandidateCount(gateways[1..]);
    }
  }

  /** The candidates of two gateway lists are those of the first followed by those of the second. */
  lemma {:induction false} CandidatesAppend(a: seq<string>, b: seq<string>)
    ensures CandidatesOf(a + b) == CandidatesOf(a) + CandidatesOf(b)
    decreases |a|
  {
    if |a| == 0 {
      assert a + b == b;
    } else {
      assert (a + b)[0] == a[0];
      assert (a + b)[1..] == a[1..] + b;
      CandidatesAppend(a[1..], b);
    }
  }

  /** The five private gateways each probe 20 hosts: 100 in all. */
  lemma PrivateHosts()
    ensures TotalHosts(GATEWAYS[..5]) == 100
  {
    var g := GATEWAYS[..5];
    assert g[0][..4][1] != '0' && g[1][..4][1] != '0' && g[2][..4][1] != '0';
    assert g[3][..4][2] != '0' && g[4][..4][1] != '0';
    assert g[5..] == [];
    assert TotalHosts(g[4..]) == 20;
    assert TotalHosts(g[3..]) == 40;
    assert TotalHosts(g[2..]) == 60;
    assert TotalHosts(g[1..]) == 80;
  }

  /** The hotspot gateway probes hosts 1..100 of `100.106.213`. */
  lemma HotspotHosts()
    ensures CandidatesOf(GATEWAYS[5..]) == HostUrls("100.106.213", 100)
  {
    var hotspot := GATEWAYS[5];
    assert hotspot[11] == '.' && hotspot[12] != '.';
    assert BaseIp(hotspot) == "100.106.213" by {
      var k := LastIndexOf(hotspot, '.');
      assert k.Some? && k.value == 11;
    }
    assert hotspot[..4] == "100.";
    assert GATEWAYS[5..][1..] == [];
  }

  /**
    One pass makes 200 probes: the first hundred are the five private networks,
    the last hundred are hosts 1..100 of `100.106.213`.
   */
  lemma HotspotCandidates()
    ensures |CandidatesOf(GATEWAYS)| == 200
    ensures CandidatesOf(GATEWAYS)[..100] == CandidatesOf(GATEWAYS[..5])
    ensures CandidatesOf(GATEWAYS)[100..] == HostUrls("100.106.213", 100)
  {
    assert GATEWAYS == GATEWAYS[..5] + GATEWAYS[5..];
    CandidatesAppend(GATEWAYS[..5], GATEWAYS[5..]);
    CandidateCount(GATEWAYS[..5]);
    PrivateHosts();
    HotspotHosts();
  }

  /** How a probe ends: an error or the 500 ms abort, or a response with its status and parsed body. */
  datatype Probe = Error | Response(ok: bool, body: Option<Value>)

  /** A host is the server when the response is OK and its JSON `message` is the server's greeting. */
  predicate Matches(p: Probe) {
    p.Response? && p.ok && p.body.Some? && Field(p.body.value, "message") == Str(SERVER_MESSAGE)
  }

  /** The first URL whose probe matches, with its position. */
  function FirstMatch(urls: seq<string>, probe: string -> Probe): (r: Option<nat>)
    ensures r.Some? ==> r.value < |urls| && Matches(probe(urls[r.value]))
    ensures r.Some? ==> forall j :: 0 <= j < r.value ==> !Matches(probe(urls[j]))
    ensures r.None? ==> forall j :: 0 <= j < |urls| ==> !Matches(probe(urls[j]))
    decreases |urls|
  {
    if |urls| == 0 then None
    else if Matches(probe(urls[0])) then Some(0)
    else
      match FirstMatch(urls[1..], probe)
      case None => None
      case Some(k) => Some(k + 1)
  }

  /** `discoverServer()`'s scan: probes in order and stops at the first match; errors just move on. */
  method Scan(urls: seq<string>, probe: string -> Probe) returns (found: Option<string>, probed: nat)
    ensures probed <= |urls|
    ensures found.Some? ==> probed >= 1 && found.value == urls[probed - 1] && Matches(probe(found.value))
    ensures found.None? ==> probed == |urls|
    ensures forall j :: 0 <= j < |urls| && (found.None? || j < probed - 1) ==> !Matches(probe(urls[j]))
  {
    probed := 0;
    while probed < |urls|
      invariant probed <= |urls|
      invariant forall j :: 0 <= j < probed ==> !Matches(probe(urls[j]))
    {
      var outcome := probe(urls[probed]);
      probed := probed + 1;
      if Matches(outcome) {
        return Some(urls[probed - 1]), probed;
      }
    }
    found := None;
  }

  /** The service's fields: whether the interval is set and the callback held, and `startTime`. */
  datatype Service = Service(intervalSet: bool, callbackSet: bool, startTime: int)

  const Idle := Service(false, false, 0)

  datatype Effect = ServerFound(url: string) | DiscoveryStopped

  datatype Step = Step(service: Service, effects: seq<Effect>)

  /** `stopDiscovery()`. */
  function StopDiscovery(s: Service): (r: Step)
    ensures !r.service.intervalSet && !r.service.callbackSet
    ensures r.effects == [DiscoveryStopped]
  {
    Step(s.(intervalSet := false, callbackSet := false), [DiscoveryStopped])
  }

  /**
    One pass of `discoverServer()` over the candidates of `gateways` (the
    service always passes GATEWAYS, whose candidates `HotspotCandidates` lists).
   */
  function DiscoverServer(s: Service, gateways: seq<string>, probe: string -> Probe): (r: Step)
    ensures FirstMatch(CandidatesOf(gateways), probe).None? ==> r == Step(s, [])
    ensures FirstMatch(CandidatesOf(gateways), probe).Some? ==>
      var url := CandidatesOf(gateways)[FirstMatch(CandidatesOf(gateways), probe).value];
      && !r.service.intervalSet && !r.service.callbackSet
      && r.effects == (if s.callbackSet then [ServerFound(url)] else []) + [DiscoveryStopped]
  {
    var urls := CandidatesOf(gateways);
    match FirstMatch(urls, probe)
    case None => Step(s, [])
    case Some(k) =>
      var stop := StopDiscovery(s);
      Step(stop.service, (if s.callbackSet then [ServerFound(urls[k])] else []) + stop.effects)
  }

  /** `startDiscovery(onServerFound)` at `now`: records the callback and the start, then runs a first pass. */
  function StartDiscovery(now: int, gateways: seq<string>, probe: string -> Probe): (r: Step)
    ensures FirstMatch(CandidatesOf(gateways), probe).None? ==>
      r == Step(Service(true, true, now), [])
    ensures FirstMatch(CandidatesOf(gateways), probe).Some? ==>
      |r.effects| == 2 && r.effects[0].ServerFound? && !r.service.intervalSet
  {
    DiscoverServer(Service(true, true, now), gateways, probe)
  }

  /** One firing of the interval at `now`: give up after 10 s, otherwise scan again. */
  function IntervalTick(s: Service, now: int, gateways: seq<string>, probe: string -> Probe): (r: Step)
    ensures !s.intervalSet ==> r == Step(s, [])
    ensures s.intervalSet && now - s.startTime > DISCOVERY_TIMEOUT_MS ==>
      r == Step(s.(intervalSet := false, callbackSet := false), [DiscoveryStopped])
    ensures s.intervalSet && now - s.startTime <= DISCOVERY_TIMEOUT_MS ==> r == DiscoverServer(s, gateways, probe)
  {
    if !s.intervalSet then Step(s, [])
    else if now - s.startTime > DISCOVERY_TIMEOUT_MS then StopDiscovery(s)
    else DiscoverServer(s, gateways, probe)
  }

  /** A firing of the interval: its time and what each probe returns at that moment. */
  datatype Firing = Firing(now: int, probe: string -> Probe)

  function Ticks(s: Service, gateways: seq<string>, firings: seq<Firing>): Step
    decreases |firings|
  {
    if |firings| == 0 then Step(s, [])
    else
      var first := IntervalTick(s, firings[0].now, gateways, firings[0].probe);
      var rest := Ticks(first.service, gateways, firings[1..]);
      Step(rest.service, first.effects + rest.effects)
  }

  /** Once stopped, by a find or by the timeout, no later firing reports a server. */
  lemma {:induction false} StoppedStaysSilent(s: Service, gateways: seq<string>, firings: seq<Firing>)
    requires !s.intervalSet
    ensures Ticks(s, gateways, firings) == Step(s, [])
    decreases |firings|
  {
    if |firings| > 0 {
      StoppedStaysSilent(s, gateways, firings[1..]);
    }
  }

  /** A firing after the 10 s deadline stops discovery without probing, and nothing is reported afterwards. */
  lemma TimeoutEndsDiscovery(s: Service, gateways: seq<string>, late: Firing, firings: seq<Firing>)
    requires s.intervalSet && late.now - s.startTime > DISCOVERY_TIMEOUT_MS
    ensures var r := Ticks(s, gateways, [late] + firings);
      r.effects == [DiscoveryStopped] && !r.service.intervalSet && !r.service.callbackSet
  {
    var first := IntervalTick(s, late.now, gateways, late.probe);
    assert ([late] + firings)[1..] == firings;
    StoppedStaysSilent(first.service, gateways, firings);
  }
}

=== FILE: json.dfy ===
/**
  JavaScript values as they travel through the server and the dashboard:
  parsed JSON events, accident records and log entries. Objects are finite
  maps from field names to values, so a spread `{...a, k: v}` is a map update
  and a missing field reads as `undefined`. There is no array case: a value that
  is an array inside a record is not represented, and reading a field of one
  (which JavaScript answers with `undefined` for `severity` or `isCancelled`)
  is outside the model.
 */
module Json {

  datatype Value =
    | Undefined
    | Null
    | Bool(b: bool)
    | Num(n: real)
    | Str(s: string)
    | Obj(fields: map<string, Value>)

  /** A JavaScript object: field name to value. */
  type Record = map<string, Value>

  /**
    JavaScript truthiness: `undefined`, `null`, `false`, `0` and `""` are falsy,
    every object is truthy. NaN is not representable here.
   */
  predicate Truthy(v: Value) {
    match v
    case Undefined => false
    case Null => false
    case Bool(b) => b
    case Num(n) => n != 0.0
    case Str(s) => s != ""
    case Obj(_) => true
  }

  /** `a || b`: the first operand when it is truthy, otherwise the second. */
  function Or(a: Value, b: Value): (r: Value)
    ensures Truthy(a) ==> r == a
    ensures !Truthy(a) ==> r == b
    ensures Truthy(r) <==> Truthy(a) || Truthy(b)
  {
    if Truthy(a) then a else b
  }

  /** Property read `o.k`: `undefined` when the field is missing. */
  function Get(o: Record, k: string): (r: Value)
    ensures k !in o ==> r == Undefined
    ensures k in o ==> r == o[k]
  {
    if k in o then o[k] else Undefined
  }

  /**
    Property read on an arbitrary value: only objects have fields here. On `null`
    and `undefined` JavaScript throws instead of answering; this function answers
    `undefined` there, so callers that must reproduce the throw test for it
    first (as the accidents route does with its `Throws` predicate).
   */
  function Field(v: Value, k: string): Value {
    match v
    case Obj(fields) => Get(fields, k)
    case _ => Undefined
  }
}

=== FILE: ml_detector.dfy ===
/**
  The device's windowed heuristic crash scorer, SmartHelmet/ml_crash_detector.cpp:
  a 100-slot ring buffer of raw IMU samples filled at most every 20 ms, and a
  score over four window features. The features themselves (maxima and
  variances of square-root magnitudes) are floating-point numerics and are
  taken as inputs; `millis()` is the explicit `now`.
 */
module MlCrashDetector {

  const WINDOW_SIZE: nat := 100
  const THRESHOLD: real := 0.5
  const SAMPLE_INTERVAL_MS: nat := 20

  /** One buffer row: the three accelerometer and three gyroscope axes. */
  datatype Sample = Sample(ax: real, ay: real, az: real, gx: real, gy: real, gz: real)

  const Zero := Sample(0.0, 0.0, 0.0, 0.0, 0.0, 0.0)

  /** The statistics `runInference` computes over a full window. */
  datatype Features = Features(maxAccel: real, maxGyro: real, accelVariance: real, gyroVariance: real)

  /** The file's static state: `sensorBuffer`, `bufferIndex`, `bufferFull`, `lastSampleTime`, `lastConfidence`. */
  datatype Ml = Ml(buffer: seq<Sample>, index: nat, full: bool, lastSampleTime: nat, lastConfidence: real)

  /** Zero-initialised statics, as at power-up. */
  const Initial := Ml(seq(WINDOW_SIZE, _ => Zero), 0, false, 0, 0.0)

  predicate Valid(m: Ml) {
    |m.buffer| == WINDOW_SIZE && m.index < WINDOW_SIZE && 0.0 <= m.lastConfidence <= 1.0
  }

  lemma InitialValid()
    ensures Valid(Initial) && Initial.index == 0 && !Initial.full
  {
  }

  /** `addSensorSample()` at `now` with the IMU reading `s`. */
  function AddSensorSample(m: Ml, now: nat, s: Sample): (m': Ml)
    requires Valid(m)
    ensures Valid(m')
    // Too soon after the last accepted sample: nothing changes.
    ensures now - m.lastSampleTime < SAMPLE_INTERVAL_MS ==> m' == m
    // Otherwise the sample takes the current slot, and only that slot.
    ensures now - m.lastSampleTime >= SAMPLE_INTERVAL_MS ==>
      && m'.lastSampleTime == now
      && m'.buffer[m.index] == s
      && (forall i :: 0 <= i < WINDOW_SIZE && i != m.index ==> m'.buffer[i] == m.buffer[i])
      && m'.index == (m.index + 1) % WINDOW_SIZE
      && m'.full == (m.full || m.index + 1 == WINDOW_SIZE)
      && m'.lastConfidence == m.lastConfidence
  {
    if now - m.lastSampleTime < SAMPLE_INTERVAL_MS then m
    else
      var buffer := m.buffer[m.index := s];
      var index := m.index + 1;
      if index >= WINDOW_SIZE then
        m.(lastSampleTime := now, buffer := buffer, index := 0, full := true)
      else
        m.(lastSampleTime := now, buffer := buffer, index := index)
  }

  function Clamp(x: real): (r: real)
    ensures 0.0 <= r <= 1.0
    ensures 0.0 <= x <= 1.0 ==> r == x
  {
    if x < 0.0 then 0.0 else if x > 1.0 then 1.0 else x
  }

  /** The heuristic score over a full window, as the source adds it up test by test. */
  function Score(f: Features): real {
    var c0 := 0.0;
    var c1 := if f.maxAccel > 3.5 then c0 + 0.3 else c0;
    var c2 := if f.maxGyro > 200.0 then c1 + 0.25 else c1;
    var c3 := if f.accelVariance > 1.0 then c2 + 0.2 else c2;
    var c4 := if f.gyroVariance > 5000.0 then c3 + 0.15 else c3;
    var c5 := if f.maxAccel > 4.0 && f.maxGyro > 150.0 then c4 + 0.3 else c4;
    Clamp(c5)
  }

  /** A feature test and the weight it adds when it passes. */
  datatype Rule = Rule(passed: bool, weight: real)

  /** The five feature tests, as a table. */
  function Rules(f: Features): seq<Rule> {
    [ Rule(f.maxAccel > 3.5, 0.3),
      Rule(f.maxGyro > 200.0, 0.25),
      Rule(f.accelVariance > 1.0, 0.2),
      Rule(f.gyroVariance > 5000.0, 0.15),
      Rule(f.maxAccel > 4.0 && f.maxGyro > 150.0, 0.3) ]
  }

  /** The total weight of the passing rules. */
  function Passed(rules: seq<Rule>): real {
    if |rules| == 0 then 0.0
    else (if rules[0].passed then rules[0].weight else 0.0) + Passed(rules[1..])
  }

  /** The score is the clamped total weight of the passing tests. */
  lemma ScoreIsClampedWeightSum(f: Features)
    ensures Score(f) == Clamp(Passed(Rules(f)))
  {
    var rs := Rules(f);
    assert Passed(rs[4..]) == (if rs[4].passed then rs[4].weight else 0.0) + Passed(rs[5..]);
    assert Passed(rs[3..]) == (if rs[3].passed then rs[3].weight else 0.0) + Passed(rs[4..]);
    assert Passed(rs[2..]) == (if rs[2].passed then rs[2].weight else 0.0) + Passed(rs[3..]);
    assert Passed(rs[1..]) == (if rs[1].passed then rs[1].weight else 0.0) + Passed(rs[2..]);
  }

  /** Raising any feature never lowers the score. */
  lemma ScoreMonotone(f: Features, g: Features)
    requires f.maxAccel <= g.maxAccel && f.maxGyro <= g.maxGyro
    requires f.accelVariance <= g.accelVariance && f.gyroVariance <= g.gyroVariance
    ensures Score(f) <= Score(g)
  {
  }

  /** `runInference()`: zero until the window is full, then the clamped weight sum. */
  function RunInference(m: Ml, f: Features): (c: real)
    ensures 0.0 <= c <= 1.0
    ensures !m.full ==> c == 0.0
    ensures m.full ==> c == Clamp(Passed(Rules(f)))
  {
    ScoreIsClampedWeightSum(f);
    if !m.full then 0.0 else Score(f)
  }

  datatype Detection = Detection(ml: Ml, detected: bool)

  /**
    `mlCrashDetected()` at `now` with reading `s`; `f` are the features of the
    window as it stands after the sample is added.
   */
  function MlCrashDetected(m: Ml, now: nat, s: Sample, f: Features): (r: Detection)
    requires Valid(m)
    ensures Valid(r.ml)
    ensures r.ml == AddSensorSample(m, now, s).(lastConfidence := r.ml.lastConfidence)
    // The stored score is the inference over the window with the new sample in it.
    ensures r.ml.lastConfidence == RunInference(AddSensorSample(m, now, s), f)
    ensures r.ml.full ==> r.ml.lastConfidence == Clamp(Passed(Rules(f)))
    ensures r.detected <==> r.ml.lastConfidence >= THRESHOLD
    ensures !r.ml.full ==> !r.detected && r.ml.lastConfidence == 0.0
    ensures r.ml.full && f.maxAccel > 4.0 && f.maxGyro > 150.0 ==> r.detected
  {
    var added := AddSensorSample(m, now, s);
    var c := RunInference(added, f);
    Detection(added.(lastConfidence := c), c >= THRESHOLD)
  }

  /** `getMLConfidence()`: the last score, always a probability. */
  function GetMlConfidence(m: Ml): (c: real)
    requires Valid(m)
    ensures 0.0 <= c <= 1.0
  {
    m.lastConfidence
  }

  /** `resetMLCrashDetector()`: index, full flag and score cleared; buffer contents and sample clock kept. */
  function ResetMlCrashDetector(m: Ml): (m': Ml)
    requires Valid(m)
    ensures Valid(m')
    ensures m'.index == 0 && !m'.full && m'.lastConfidence == 0.0
    ensures m'.buffer == m.buffer && m'.lastSampleTime == m.lastSampleTime
  {
    m.(index := 0, full := false, lastConfidence := 0.0)
  }

  /** The impact-plus-rotation test alone scores at least 0.6, over the 0.5 threshold. */
  lemma ImpactWithRotationDetected(f: Features)
    requires f.maxAccel > 4.0 && f.maxGyro > 150.0
    ensures Score(f) >= 0.6 && Score(f) >= THRESHOLD
  {
  }

  /** Sample times each at least 20 ms after the one before, the first 20 ms after `last`. */
  predicate Spaced(last: nat, times: seq<nat>)
    decreases |times|
  {
    |times| == 0 || (times[0] - last >= SAMPLE_INTERVAL_MS && Spaced(times[0], times[1..]))
  }

  /** Adds samples at the given times, in order. */
  function AddAll(m: Ml, times: seq<nat>, s: Sample): (m': Ml)
    requires Valid(m)
    ensures Valid(m')
    decreases |times|
  {
    if |times| == 0 then m else AddAll(AddSensorSample(m, times[0], s), times[1..], s)
  }

  /**
    After n accepted samples the write position has advanced by n modulo 100,
    and the window is full exactly when the writes have reached slot 100 at
    least once.
   */
  lemma {:induction false} RingPosition(m: Ml, times: seq<nat>, s: Sample)
    requires Valid(m) && Spaced(m.lastSampleTime, times)
    ensures AddAll(m, times, s).index == (m.index + |times|) % WINDOW_SIZE
    ensures AddAll(m, times, s).full == (m.full || m.index + |times| >= WINDOW_SIZE)
    decreases |times|
  {
    if |times| > 0 {
      var m1 := AddSensorSample(m, times[0], s);
      RingPosition(m1, times[1..], s);
    }
  }

  /** From a reset, the window fills exactly with the hundredth accepted sample; no detection can happen before. */
  lemma FullAfterHundred(m: Ml, times: seq<nat>, s: Sample)
    requires Valid(m) && Spaced(m.lastSampleTime, times)
    ensures var r := AddAll(ResetMlCrashDetector(m), times, s);
      r.index == |times| % WINDOW_SIZE && (r.full <==> |times| >= WINDOW_SIZE)
  {
    RingPosition(ResetMlCrashDetector(m), times, s);
  }
}

=== FILE: mobile_sensor.dfy ===
/**
  The phone's crash scorer and alert gate, `checkAnomaly` / `resetAlertState` /
  `stopMonitoring` of helmet-sensor-app/services/sensorService.ts. The
  acceleration magnitude and the pitch and roll angles (square root and atan2 of
  the raw axes) are inputs; `Date.now()` is the explicit `now`.
 */
module MobileSensor {

  const COOLDOWN_MS: int := 30000
  const ACCEL_CRASH_G: real := 2.0
  const HARD_IMPACT_G: real := 3.5
  const TILT_THRESHOLD_DEG: real := 60.0
  const TRIGGER: real := 0.7

  /** 'RESOLVED' is declared by the source but never assigned. */
  datatype AlertState = Idle | AlertActive | Resolved

  /**
    The service fields the gate reads and writes; `gForce` is `currentData.gForce`,
    and `listening` says whether the accelerometer subscription (whose callback
    runs the gate) is held.
   */
  datatype Sensor = Sensor(alertState: AlertState, lastAccidentTime: int, gForce: real, listening: bool)

  const Initial := Sensor(Idle, 0, 0.0, false)

  /**
    One call of `onAnomalyDetected`. The callback receives the whole `currentData`
    object with its g-force just overwritten by the magnitude; only that g-force is
    kept here, since the tilt, axes, rotation and location it also carries are
    written by other sensor callbacks that are not part of this model.
   */
  datatype Report = Report(gForce: real)

  datatype Check = Check(sensor: Sensor, reports: seq<Report>)

  function Abs(x: real): real {
    if x < 0.0 then -x else x
  }

  /** The confidence score: 0.4 for the impact, 0.4 for the tilt, 1.0 on a hard impact. */
  function Confidence(a: real, pitch: real, roll: real): (c: real)
    ensures a > HARD_IMPACT_G ==> c == 1.0
    ensures c == 0.0 || c == 0.4 || c == 0.8 || c == 1.0
  {
    var c0 := 0.0;
    var c1 := if a > ACCEL_CRASH_G then c0 + 0.4 else c0;
    var c2 := if Abs(pitch) > TILT_THRESHOLD_DEG || Abs(roll) > TILT_THRESHOLD_DEG then c1 + 0.4 else c1;
    if a > HARD_IMPACT_G then 1.0 else c2
  }

  /** When a sample is a crash, stated without the score: a hard impact, or an impact with a roll-over. */
  predicate IsCrash(a: real, pitch: real, roll: real) {
    a > HARD_IMPACT_G
    || (a > ACCEL_CRASH_G && (Abs(pitch) > TILT_THRESHOLD_DEG || Abs(roll) > TILT_THRESHOLD_DEG))
  }

  /** The score reaches 0.7 exactly for crashes; a lone 0.4 never does. */
  lemma ConfidenceMatchesCrash(a: real, pitch: real, roll: real)
    ensures Confidence(a, pitch, roll) >= TRIGGER <==> IsCrash(a, pitch, roll)
  {
  }

  /** True when the gate is open: no alert in progress and the 30 s cooldown has passed. */
  predicate GateOpen(s: Sensor, now: nat) {
    s.alertState == Idle && now - s.lastAccidentTime >= COOLDOWN_MS
  }

  /** `checkAnomaly(onAnomalyDetected)` on a sample taken at `now`. */
  function CheckAnomaly(s: Sensor, now: nat, a: real, pitch: real, roll: real): (r: Check)
    ensures s.alertState != Idle ==> r == Check(s, [])
    ensures now - s.lastAccidentTime < COOLDOWN_MS ==> r == Check(s, [])
    ensures |r.reports| <= 1
    ensures |r.reports| == 1 <==> GateOpen(s, now) && IsCrash(a, pitch, roll)
    ensures |r.reports| == 1 ==>
      r.sensor == s.(alertState := AlertActive, lastAccidentTime := now, gForce := a) && r.reports[0] == Report(a)
    ensures |r.reports| == 0 ==> r.sensor == s
  {
    if s.alertState != Idle then Check(s, [])
    else if now - s.lastAccidentTime < COOLDOWN_MS then Check(s, [])
    else
      var confidence := Confidence(a, pitch, roll);
      ConfidenceMatchesCrash(a, pitch, roll);
      if confidence >= TRIGGER then
        var s' := s.(alertState := AlertActive, lastAccidentTime := now, gForce := a);
        Check(s', [Report(s'.gForce)])
      else
        Check(s, [])
  }

  /** `resetAlertState()`: the gate reopens; the cooldown clock and the subscription are left alone. */
  function ResetAlertState(s: Sensor): (s': Sensor)
    ensures s'.alertState == Idle && s'.listening == s.listening
    ensures s'.lastAccidentTime == s.lastAccidentTime && s'.gForce == s.gForce
  {
    s.(alertState := Idle)
  }

  /** The subscription part of `startMonitoring()`: the gate starts receiving samples; nothing else changes. */
  function StartMonitoring(s: Sensor): (s': Sensor)
    ensures s'.listening
    ensures s'.alertState == s.alertState && s'.lastAccidentTime == s.lastAccidentTime && s'.gForce == s.gForce
  {
    s.(listening := true)
  }

  /** `stopMonitoring()`: the subscriptions are dropped and the gate returns to IDLE; the cooldown clock is kept. */
  function StopMonitoring(s: Sensor): (s': Sensor)
    ensures !s'.listening && s'.alertState == Idle
    ensures s'.lastAccidentTime == s.lastAccidentTime && s'.gForce == s.gForce
  {
    s.(alertState := Idle, listening := false)
  }

  /** A sample: its time, magnitude, pitch and roll. */
  datatype Sample = Sample(now: nat, a: real, pitch: real, roll: real)

  /** Feeds samples to the gate with no reset in between; returns the final state and all reports. */
  function Feed(s: Sensor, samples: seq<Sample>): Check
    decreases |samples|
  {
    if |samples| == 0 then Check(s, [])
    else
      var r := CheckAnomaly(s, samples[0].now, samples[0].a, samples[0].pitch, samples[0].roll);
      var rest := Feed(r.sensor, samples[1..]);
      Check(rest.sensor, r.reports + rest.reports)
  }

  /** Once an alert is active, no further sample is reported until the state is reset. */
  lemma {:induction false} ActiveAlertIsSilent(s: Sensor, samples: seq<Sample>)
    requires s.alertState == AlertActive
    ensures Feed(s, samples) == Check(s, [])
    decreases |samples|
  {
    if |samples| > 0 {
      ActiveAlertIsSilent(s, samples[1..]);
    }
  }

  /** Between two resets the gate reports at most once, whatever the samples. */
  lemma {:induction false} AtMostOneReportPerEpisode(s: Sensor, samples: seq<Sample>)
    ensures |Feed(s, samples).reports| <= 1
    ensures s.alertState != Idle ==> Feed(s, samples).reports == []
    decreases |samples|
  {
    if |samples| > 0 {
      var r := CheckAnomaly(s, samples[0].now, samples[0].a, samples[0].pitch, samples[0].roll);
      AtMostOneReportPerEpisode(r.sensor, samples[1..]);
      if |r.reports| == 1 {
        ActiveAlertIsSilent(r.sensor, samples[1..]);
      }
    }
  }

  /** Resetting right after a report does not lift the 30 s cooldown. */
  lemma ResetKeepsCooldown(s: Sensor, t: nat, a: real, pitch: real, roll: real, later: Sample, stop: bool)
    requires |CheckAnomaly(s, t, a, pitch, roll).reports| == 1
    requires later.now < t + COOLDOWN_MS
    ensures var s1 := CheckAnomaly(s, t, a, pitch, roll).sensor;
      var s2 := if stop then StopMonitoring(s1) else ResetAlertState(s1);
      CheckAnomaly(s2, later.now, later.a, later.pitch, later.roll).reports == []
  {
  }
}

=== FILE: mqtt_service.dfy ===
/**
  `handleHelmetEvent` of helmet-server/services/mqttService.js: every MQTT helmet
  event is relayed to the dashboard, then ACCIDENT_PENDING events are merged into a
  per-helmet pending cache and CRASH_CANCELLED / CRASH_CONFIRMED events resolve it
  into one accident-log record (and, for a confirmed crash with a location, one
  e-mail request). Events are parsed JSON objects; JavaScript `||` decides every merge.
 */
module MqttService {
  import opened Json
  import AlertService

  /** The telemetry fields an ACCIDENT_PENDING event may contribute to the cache. */
  const CachedFields: set<string> := {"location", "gForce", "tilt", "acceleration"}

  /** The fields of the three records a resolution builds. */
  const CancelledFields: set<string> :=
    {"gForce", "tilt", "location", "timestamp", "helmetId", "source", "severity", "status", "isCancelled"}
  const ConfirmedFields: set<string> :=
    {"gForce", "tilt", "acceleration", "location", "timestamp", "helmetId", "source", "severity", "status", "isCancelled"}
  const EmailFields: set<string> := {"gForce", "tilt", "location", "timestamp", "source"}

  datatype Broker = Broker(pendingCache: map<Value, Record>, log: seq<Record>)

  datatype Effect =
    | HelmetEvent(event: Record)      // io.emit("helmet_event", event)
    | SendEmail(request: Record)      // emailService.sendAccidentEmail(request)

  datatype Step = Step(broker: Broker, effects: seq<Effect>)

  /** `event.helmetId || 'H001'`. */
  function HelmetId(event: Record): (id: Value)
    ensures !Truthy(Get(event, "helmetId")) ==> id == Str("H001")
    ensures Truthy(Get(event, "helmetId")) ==> id == Get(event, "helmetId")
  {
    Or(Get(event, "helmetId"), Str("H001"))
  }

  /** `event.source || 'ESP32'`. */
  function Source(event: Record): Value {
    Or(Get(event, "source"), Str("ESP32"))
  }

  /** `pendingCache.get(helmetId) || {}`. */
  function Cached(b: Broker, id: Value): Record {
    if id in b.pendingCache then b.pendingCache[id] else map[]
  }

  /** Copies `event[f]` into the entry when it is truthy (`if (event.f) existing.f = event.f`). */
  function MergeField(existing: Record, event: Record, f: string): (r: Record)
    ensures Truthy(Get(event, f)) ==> Get(r, f) == Get(event, f)
    ensures !Truthy(Get(event, f)) ==> r == existing
    ensures forall k :: k != f ==> Get(r, k) == Get(existing, k)
    ensures r.Keys <= existing.Keys + {f}
  {
    if Truthy(Get(event, f)) then existing[f := Get(event, f)] else existing
  }

  /** The ACCIDENT_PENDING merge: location, gForce, tilt and acceleration, in that order. */
  function MergePending(existing: Record, event: Record): (r: Record)
    ensures forall f :: f in CachedFields ==>
      Get(r, f) == if Truthy(Get(event, f)) then Get(event, f) else Get(existing, f)
    ensures forall k :: k !in CachedFields ==> Get(r, k) == Get(existing, k)
    ensures r.Keys <= existing.Keys + CachedFields
  {
    var e1 := MergeField(existing, event, "location");
    var e2 := MergeField(e1, event, "gForce");
    var e3 := MergeField(e2, event, "tilt");
    MergeField(e3, event, "acceleration")
  }

  /** The log record of a cancelled crash: cache first, then event, then the defaults 0, 0, null. */
  function CancelledRecord(cache: Record, event: Record, id: Value, now: nat): (r: Record)
    ensures Get(r, "gForce") == Or(Or(Get(cache, "gForce"), Get(event, "gForce")), Num(0.0))
    ensures Get(r, "tilt") == Or(Or(Get(cache, "tilt"), Get(event, "tilt")), Num(0.0))
    ensures Get(r, "location") == Or(Or(Get(cache, "location"), Get(event, "location")), Null)
    ensures Get(r, "timestamp") == Num(now as real) && Get(r, "helmetId") == id
    ensures Get(r, "source") == Or(Get(event, "source"), Str("ESP32"))
    ensures Get(r, "severity") == Str("low") && Get(r, "status") == Str("Cancelled")
    ensures Get(r, "isCancelled") == Bool(true)
  {
    map["gForce" := Or(Or(Get(cache, "gForce"), Get(event, "gForce")), Num(0.0)),
        "tilt" := Or(Or(Get(cache, "tilt"), Get(event, "tilt")), Num(0.0)),
        "location" := Or(Or(Get(cache, "location"), Get(event, "location")), Null),
        "timestamp" := Num(now as real),
        "helmetId" := id,
        "source" := Source(event),
        "severity" := Str("low"),
        "status" := Str("Cancelled"),
        "isCancelled" := Bool(true)]
  }

  /** A cancelled record has exactly the nine fields the source writes, so no acceleration. */
  lemma CancelledRecordKeys(cache: Record, event: Record, id: Value, now: nat)
    ensures CancelledRecord(cache, event, id, now).Keys == CancelledFields
  {
  }

  /** Location of a confirmed crash: the cached one wins over the event's. */
  function FinalLocation(cache: Record, event: Record): Value {
    Or(Or(Get(cache, "location"), Get(event, "location")), Null)
  }

  /** The log record of a confirmed crash: telemetry event first, location cache first. */
  function ConfirmedRecord(cache: Record, event: Record, id: Value, now: nat): (r: Record)
    ensures Get(r, "gForce") == Or(Or(Get(event, "gForce"), Get(cache, "gForce")), Num(0.0))
    ensures Get(r, "tilt") == Or(Or(Get(event, "tilt"), Get(cache, "tilt")), Num(0.0))
    ensures Get(r, "acceleration") == Or(Or(Get(event, "acceleration"), Get(cache, "acceleration")), Obj(map[]))
    ensures Get(r, "location") == FinalLocation(cache, event)
    ensures Get(r, "timestamp") == Num(now as real) && Get(r, "helmetId") == id
    ensures Get(r, "source") == Or(Get(event, "source"), Str("ESP32"))
    ensures Get(r, "severity") == Str("high") && Get(r, "status") == Str("Confirmed")
    ensures Get(r, "isCancelled") == Bool(false)
  {
    map["gForce" := Or(Or(Get(event, "gForce"), Get(cache, "gForce")), Num(0.0)),
        "tilt" := Or(Or(Get(event, "tilt"), Get(cache, "tilt")), Num(0.0)),
        "acceleration" := Or(Or(Get(event, "acceleration"), Get(cache, "acceleration")), Obj(map[])),
        "location" := FinalLocation(cache, event),
        "timestamp" := Num(now as real),
        "helmetId" := id,
        "source" := Source(event),
        "severity" := Str("high"),
        "status" := Str("Confirmed"),
        "isCancelled" := Bool(false)]
  }

  /** A confirmed record has exactly the ten fields the source writes. */
  lemma ConfirmedRecordKeys(cache: Record, event: Record, id: Value, now: nat)
    ensures ConfirmedRecord(cache, event, id, now).Keys == ConfirmedFields
  {
  }

  /** JavaScript's `a || b || fallback`, read case by case: the first truthy operand, else the fallback. */
  function FirstTruthy(a: Value, b: Value, fallback: Value): Value {
    if Truthy(a) then a else if Truthy(b) then b else fallback
  }

  /** The e-mail request of a confirmed crash, stamped at `now`. */
  function EmailRequest(cache: Record, event: Record, now: nat): (r: Record)
    ensures Get(r, "location") == FinalLocation(cache, event)
    ensures Get(r, "gForce") == FirstTruthy(Get(event, "gForce"), Get(cache, "gForce"), Num(0.0))
    ensures Get(r, "tilt") == FirstTruthy(Get(event, "tilt"), Get(cache, "tilt"), Num(0.0))
    ensures Get(r, "source") == if Truthy(Get(event, "source")) then Get(event, "source") else Str("ESP32")
    ensures Get(r, "timestamp") == Num(now as real)
    ensures r.Keys == EmailFields
  {
    map["gForce" := Or(Or(Get(event, "gForce"), Get(cache, "gForce")), Num(0.0)),
        "tilt" := Or(Or(Get(event, "tilt"), Get(cache, "tilt")), Num(0.0)),
        "location" := FinalLocation(cache, event),
        "timestamp" := Num(now as real),
        "source" := Source(event)]
  }

  /** Every helmet other than `id` has the same cache entry, or none, in both maps. */
  ghost predicate OthersKept(before: map<Value, Record>, after: map<Value, Record>, id: Value) {
    forall k :: k != id ==>
      (k in after <==> k in before) && (k in before ==> after[k] == before[k])
  }

  /** Dropping one helmet's entry keeps every other entry. */
  lemma DropKeepsOthers(m: map<Value, Record>, id: Value)
    ensures OthersKept(m, m - {id}, id)
  {
  }

  /** The CRASH_CANCELLED branch for helmet `id`: one record logged, the entry dropped, no e-mail. */
  function Cancel(b: Broker, event: Record, id: Value, now: nat, loggedAt: string): (r: Step)
    ensures r.broker.pendingCache == b.pendingCache - {id}
    ensures OthersKept(b.pendingCache, r.broker.pendingCache, id)
    ensures |r.broker.log| == |b.log| + 1 && r.broker.log[..|b.log|] == b.log
    ensures r.effects == []
  {
    DropKeepsOthers(b.pendingCache, id);
    var cache := Cached(b, id);
    Step(Broker(b.pendingCache - {id}, AlertService.LogAccident(b.log, CancelledRecord(cache, event, id, now), loggedAt)), [])
  }

  /** The CRASH_CONFIRMED branch for helmet `id`: one record logged, the entry dropped, at most one e-mail. */
  function Confirm(b: Broker, event: Record, id: Value, now: nat, mailedAt: nat, loggedAt: string): (r: Step)
    ensures r.broker.pendingCache == b.pendingCache - {id}
    ensures OthersKept(b.pendingCache, r.broker.pendingCache, id)
    ensures |r.broker.log| == |b.log| + 1 && r.broker.log[..|b.log|] == b.log
    ensures |r.effects| <= 1 && forall i :: 0 <= i < |r.effects| ==> r.effects[i].SendEmail?
  {
    DropKeepsOthers(b.pendingCache, id);
    var cache := Cached(b, id);
    var email := if Truthy(FinalLocation(cache, event)) then [SendEmail(EmailRequest(cache, event, mailedAt))] else [];
    Step(Broker(b.pendingCache - {id}, AlertService.LogAccident(b.log, ConfirmedRecord(cache, event, id, now), loggedAt)), email)
  }

  /**
    `handleHelmetEvent(event)`; `socketSet` says whether `io` has been set. The
    handler reads the clock twice: `now` stamps the logged record and `mailedAt`
    the e-mail request, which is built after the log write. `loggedAt` is the
    log's ISO time stamp.
   */
  function HandleHelmetEvent(b: Broker, event: Record, socketSet: bool, now: nat, mailedAt: nat, loggedAt: string): (r: Step)
    // The relay comes first and only when a socket server is set.
    ensures socketSet <==> |r.effects| > 0 && r.effects[0] == HelmetEvent(event)
    ensures forall i :: 0 < i < |r.effects| ==> r.effects[i].SendEmail?
    // Only the event's own helmet entry can change.
    ensures OthersKept(b.pendingCache, r.broker.pendingCache, HelmetId(event))
    ensures var t := Get(event, "type");
      t != Str("ACCIDENT_PENDING") && t != Str("CRASH_CANCELLED") && t != Str("CRASH_CONFIRMED") ==>
        r.broker == b && |r.effects| == (if socketSet then 1 else 0)
  {
    var relay := if socketSet then [HelmetEvent(event)] else [];
    var id := HelmetId(event);
    var t := Get(event, "type");
    if t == Str("ACCIDENT_PENDING") then
      var merged := MergePending(Cached(b, id), event);
      Step(b.(pendingCache := b.pendingCache[id := merged]), relay)
    else if t == Str("CRASH_CANCELLED") then
      var c := Cancel(b, event, id, now, loggedAt);
      Step(c.broker, relay + c.effects)
    else if t == Str("CRASH_CONFIRMED") then
      var c := Confirm(b, event, id, now, mailedAt, loggedAt);
      Step(c.broker, relay + c.effects)
    else
      Step(b, relay)
  }

  /** A CRASH_CANCELLED event runs the relay and then the cancel branch. */
  lemma DispatchCancel(b: Broker, event: Record, socketSet: bool, now: nat, mailedAt: nat, loggedAt: string)
    requires Get(event, "type") == Str("CRASH_CANCELLED")
    ensures var c := Cancel(b, event, HelmetId(event), now, loggedAt);
      HandleHelmetEvent(b, event, socketSet, now, mailedAt, loggedAt)
        == Step(c.broker, (if socketSet then [HelmetEvent(event)] else []) + c.effects)
  {
    assert Str("CRASH_CANCELLED") != Str("ACCIDENT_PENDING");
  }

  /** A CRASH_CONFIRMED event runs the relay and then the confirm branch. */
  lemma DispatchConfirm(b: Broker, event: Record, socketSet: bool, now: nat, mailedAt: nat, loggedAt: string)
    requires Get(event, "type") == Str("CRASH_CONFIRMED")
    ensures var c := Confirm(b, event, HelmetId(event), now, mailedAt, loggedAt);
      HandleHelmetEvent(b, event, socketSet, now, mailedAt, loggedAt)
        == Step(c.broker, (if socketSet then [HelmetEvent(event)] else []) + c.effects)
  {
    assert "CRASH_CONFIRMED"[7] != "CRASH_CANCELLED"[7];
  }

  /** An ACCIDENT_PENDING event overwrites exactly the cached fields it carries truthy values for. */
  lemma PendingMerge(b: Broker, event: Record, socketSet: bool, now: nat, mailedAt: nat, loggedAt: string)
    requires Get(event, "type") == Str("ACCIDENT_PENDING")
    ensures var r := HandleHelmetEvent(b, event, socketSet, now, mailedAt, loggedAt);
      var id := HelmetId(event);
      && id in r.broker.pendingCache
      && (forall f :: f in CachedFields ==>
            Get(r.broker.pendingCache[id], f)
              == if Truthy(Get(event, f)) then Get(event, f) else Get(Cached(b, id), f))
      && r.broker.log == b.log
      && r.effects == (if socketSet then [HelmetEvent(event)] else [])
  {
  }

  /** A zero g-force or tilt is falsy and never replaces a cached reading. */
  lemma ZeroNeverOverwrites(b: Broker, event: Record, socketSet: bool, now: nat, mailedAt: nat, loggedAt: string, f: string)
    requires Get(event, "type") == Str("ACCIDENT_PENDING")
    requires f == "gForce" || f == "tilt"
    requires Get(event, f) == Num(0.0)
    ensures var id := HelmetId(event);
      Get(HandleHelmetEvent(b, event, socketSet, now, mailedAt, loggedAt).broker.pendingCache[id], f)
        == Get(Cached(b, id), f)
  {
    PendingMerge(b, event, socketSet, now, mailedAt, loggedAt);
  }

  /**
    CRASH_CANCELLED logs one low-severity cancelled record whose readings prefer the
    cache, then the event, then 0, 0 and null, and which has no acceleration; it drops the entry.
   */
  lemma CancelResolves(b: Broker, event: Record, socketSet: bool, now: nat, mailedAt: nat, loggedAt: string)
    requires Get(event, "type") == Str("CRASH_CANCELLED")
    ensures var r := HandleHelmetEvent(b, event, socketSet, now, mailedAt, loggedAt);
      var id := HelmetId(event);
      var cache := Cached(b, id);
      var rec := r.broker.log[|b.log|];
      && id !in r.broker.pendingCache
      && |r.broker.log| == |b.log| + 1 && r.broker.log[..|b.log|] == b.log
      && Get(rec, "severity") == Str("low") && Get(rec, "status") == Str("Cancelled")
      && Get(rec, "isCancelled") == Bool(true)
      && Get(rec, "gForce") == FirstTruthy(Get(cache, "gForce"), Get(event, "gForce"), Num(0.0))
      && Get(rec, "tilt") == FirstTruthy(Get(cache, "tilt"), Get(event, "tilt"), Num(0.0))
      && Get(rec, "location") == FirstTruthy(Get(cache, "location"), Get(event, "location"), Null)
      && Get(rec, "helmetId") == id && Get(rec, "timestamp") == Num(now as real)
      && Get(rec, "acceleration") == Undefined
      && r.effects == (if socketSet then [HelmetEvent(event)] else [])
  {
    var r := HandleHelmetEvent(b, event, socketSet, now, mailedAt, loggedAt);
    DispatchCancel(b, event, socketSet, now, mailedAt, loggedAt);
    var rec := CancelledRecord(Cached(b, HelmetId(event)), event, HelmetId(event), now);
    CancelledRecordKeys(Cached(b, HelmetId(event)), event, HelmetId(event), now);
    assert r.broker.log == AlertService.LogAccident(b.log, rec, loggedAt);
  }

  /**
    CRASH_CONFIRMED logs one high-severity record whose g-force, tilt and acceleration
    prefer the event and whose location prefers the cache, and drops the entry.
   */
  lemma ConfirmResolves(b: Broker, event: Record, socketSet: bool, now: nat, mailedAt: nat, loggedAt: string)
    requires Get(event, "type") == Str("CRASH_CONFIRMED")
    ensures var r := HandleHelmetEvent(b, event, socketSet, now, mailedAt, loggedAt);
      var id := HelmetId(event);
      var cache := Cached(b, id);
      var rec := r.broker.log[|b.log|];
      && id !in r.broker.pendingCache
      && |r.broker.log| == |b.log| + 1 && r.broker.log[..|b.log|] == b.log
      && Get(rec, "severity") == Str("high") && Get(rec, "status") == Str("Confirmed")
      && Get(rec, "isCancelled") == Bool(false)
      && Get(rec, "gForce") == FirstTruthy(Get(event, "gForce"), Get(cache, "gForce"), Num(0.0))
      && Get(rec, "tilt") == FirstTruthy(Get(event, "tilt"), Get(cache, "tilt"), Num(0.0))
      && Get(rec, "acceleration") == FirstTruthy(Get(event, "acceleration"), Get(cache, "acceleration"), Obj(map[]))
      && Get(rec, "location") == FirstTruthy(Get(cache, "location"), Get(event, "location"), Null)
      && Get(rec, "helmetId") == id && Get(rec, "timestamp") == Num(now as real)
  {
    var r := HandleHelmetEvent(b, event, socketSet, now, mailedAt, loggedAt);
    DispatchConfirm(b, event, socketSet, now, mailedAt, loggedAt);
    var rec := ConfirmedRecord(Cached(b, HelmetId(event)), event, HelmetId(event), now);
    assert r.broker.log == AlertService.LogAccident(b.log, rec, loggedAt);
  }

  /**
    A confirmed crash asks for an e-mail exactly when its merged location is truthy.
    The request carries that location and the same merged g-force, tilt and source
    as the logged record, stamped by the second clock reading.
   */
  lemma ConfirmMails(b: Broker, event: Record, socketSet: bool, now: nat, mailedAt: nat, loggedAt: string)
    requires Get(event, "type") == Str("CRASH_CONFIRMED")
    ensures var r := HandleHelmetEvent(b, event, socketSet, now, mailedAt, loggedAt);
      var cache := Cached(b, HelmetId(event));
      var location := FirstTruthy(Get(cache, "location"), Get(event, "location"), Null);
      && ((exists i :: 0 <= i < |r.effects| && r.effects[i].SendEmail?) <==> Truthy(location))
      && (Truthy(location) ==>
            var request := r.effects[|r.effects| - 1].request;
            && Get(request, "location") == location
            && Get(request, "gForce") == FirstTruthy(Get(event, "gForce"), Get(cache, "gForce"), Num(0.0))
            && Get(request, "tilt") == FirstTruthy(Get(event, "tilt"), Get(cache, "tilt"), Num(0.0))
            && Get(request, "source") == (if Truthy(Get(event, "source")) then Get(event, "source") else Str("ESP32"))
            && Get(request, "timestamp") == Num(mailedAt as real))
  {
    var r := HandleHelmetEvent(b, event, socketSet, now, mailedAt, loggedAt);
    DispatchConfirm(b, event, socketSet, now, mailedAt, loggedAt);
    var cache := Cached(b, HelmetId(event));
    var relay := if socketSet then [HelmetEvent(event)] else [];
    if Truthy(FinalLocation(cache, event)) {
      var last := SendEmail(EmailRequest(cache, event, mailedAt));
      assert r.effects == relay + [last];
      assert r.effects[|r.effects| - 1] == last;
    } else {
      assert r.effects == relay;
      assert forall i :: 0 <= i < |r.effects| ==> !r.effects[i].SendEmail?;
    }
  }

  /**
    The cache is last-location-wins while pending: of two ACCIDENT_PENDING events for
    one helmet that both carry a location, the later one's is cached, and a following
    CRASH_CONFIRMED logs that cached location whatever location it carries itself.
   */
  lemma LaterPendingLocationWins(b: Broker, e1: Record, e2: Record, c: Record,
                                 socketSet: bool, t: nat, mailedAt: nat, stamp: string)
    requires Get(e1, "type") == Str("ACCIDENT_PENDING") && Get(e2, "type") == Str("ACCIDENT_PENDING")
    requires Get(c, "type") == Str("CRASH_CONFIRMED")
    requires HelmetId(e1) == HelmetId(e2) == HelmetId(c)
    requires Truthy(Get(e1, "location")) && Truthy(Get(e2, "location"))
    ensures var b1 := HandleHelmetEvent(b, e1, socketSet, t, mailedAt, stamp).broker;
      var b2 := HandleHelmetEvent(b1, e2, socketSet, t, mailedAt, stamp).broker;
      var b3 := HandleHelmetEvent(b2, c, socketSet, t, mailedAt, stamp).broker;
      && Get(b2.pendingCache[HelmetId(c)], "location") == Get(e2, "location")
      && Get(b3.log[|b.log|], "location") == Get(e2, "location")
  {
    PendingMerge(b, e1, socketSet, t, mailedAt, stamp);
    var b1 := HandleHelmetEvent(b, e1, socketSet, t, mailedAt, stamp).broker;
    PendingMerge(b1, e2, socketSet, t, mailedAt, stamp);
    var b2 := HandleHelmetEvent(b1, e2, socketSet, t, mailedAt, stamp).broker;
    ConfirmResolves(b2, c, socketSet, t, mailedAt, stamp);
  }
}

=== FILE: server_detection.dfy ===
/**
  The server-side validator `detectAccident` (helmet-server/services/detectionService.js):
  a strict OR of a g-force test (> 2.5 g) and a tilt test (|tilt| > 45 degrees).
  Timestamp and location are carried through as whatever the client sent.
  A reading that is missing (or `null`) fails both tests, but once either test
  fires the validator formats both readings, and a missing one throws there.
 */
module ServerDetection {
  import opened Wrappers
  import opened Json

  const G_FORCE_THRESHOLD: real := 2.5
  const TILT_THRESHOLD: real := 45.0

  /**
    The fields `detectAccident` destructures from the client's alert; `None` is a
    reading that is absent or `null` (both compare false against the limits).
   */
  datatype SensorData = SensorData(gForce: Option<real>, tilt: Option<real>, timestamp: Value, location: Value)

  datatype Reason = GForce | Tilt

  /** The reason's wire spelling. */
  function ReasonName(r: Reason): string {
    match r
    case GForce => "G_FORCE"
    case Tilt => "TILT"
  }

  /**
    The validator's answer: `{ detected: false }`, or the positive record
    `{ detected: true, reason, severity, timestamp, location, sensorData: { gForce, tilt } }`,
    or the TypeError thrown by `toFixed` on a missing reading.
   */
  datatype Verdict =
    | NotDetected
    | Detected(reason: Reason, severity: string, timestamp: Value, location: Value,
               gForce: real, tilt: real)
    | TypeFailure

  function Abs(x: real): (r: real)
    ensures r >= 0.0 && (r == x || r == -x)
  {
    if x < 0.0 then -x else x
  }

  /** An alert that trips a test: either measurement present and beyond its limit. */
  predicate Anomalous(gForce: Option<real>, tilt: Option<real>) {
    || (gForce.Some? && gForce.value > G_FORCE_THRESHOLD)
    || (tilt.Some? && (tilt.value > TILT_THRESHOLD || tilt.value < -TILT_THRESHOLD))
  }

  /** Both readings are present, so the log lines can format them. */
  predicate Complete(d: SensorData) {
    d.gForce.Some? && d.tilt.Some?
  }

  function DetectAccident(d: SensorData): (r: Verdict)
    ensures r.NotDetected? <==> !Anomalous(d.gForce, d.tilt)
    ensures r.Detected? <==> Anomalous(d.gForce, d.tilt) && Complete(d)
    ensures r.TypeFailure? <==> Anomalous(d.gForce, d.tilt) && !Complete(d)
    ensures r.Detected? ==> r.severity == "PENDING"
    ensures r.Detected? ==>
      r.timestamp == d.timestamp && r.location == d.location
      && Some(r.gForce) == d.gForce && Some(r.tilt) == d.tilt
    ensures r.Detected? ==> (r.reason == GForce <==> r.gForce > G_FORCE_THRESHOLD)
  {
    var isGForceAnomaly := d.gForce.Some? && d.gForce.value > G_FORCE_THRESHOLD;
    var isTiltAnomaly := d.tilt.Some? && Abs(d.tilt.value) > TILT_THRESHOLD;
    if isGForceAnomaly || isTiltAnomaly then
      if d.gForce.None? || d.tilt.None? then TypeFailure
      else
        var reason := if isGForceAnomaly then GForce else Tilt;
        Detected(reason, "PENDING", d.timestamp, d.location, d.gForce.value, d.tilt.value)
    else
      NotDetected
  }

  /** The verdict as the JavaScript object the server stores and later classifies. */
  function VerdictRecord(v: Verdict): (r: Record)
    requires !v.TypeFailure?
    ensures "detected" in r && r["detected"] == Bool(v.Detected?)
    ensures v.NotDetected? ==> r.Keys == {"detected"}
    ensures v.Detected? ==> r.Keys == {"detected", "reason", "severity", "timestamp", "location", "sensorData"}
  {
    match v
    case NotDetected => map["detected" := Bool(false)]
    case Detected(reason, severity, timestamp, location, gForce, tilt) =>
      map["detected" := Bool(true),
          "reason" := Str(ReasonName(reason)),
          "severity" := Str(severity),
          "timestamp" := timestamp,
          "location" := location,
          "sensorData" := Obj(map["gForce" := Num(gForce), "tilt" := Num(tilt)])]
  }

  /** Both limits are strict: exactly 2.5 g with exactly 45 degrees either way is not an accident. */
  lemma BoundaryNotDetected(timestamp: Value, location: Value)
    ensures DetectAccident(SensorData(Some(2.5), Some(45.0), timestamp, location)).NotDetected?
    ensures DetectAccident(SensorData(Some(2.5), Some(-45.0), timestamp, location)).NotDetected?
  {
  }

  /** The g-force test takes priority: a sample over both limits is reported as G_FORCE. */
  lemma GForceWinsOverTilt(d: SensorData)
    requires Complete(d) && d.gForce.value > G_FORCE_THRESHOLD && Abs(d.tilt.value) > TILT_THRESHOLD
    ensures DetectAccident(d).Detected? && DetectAccident(d).reason == GForce
  {
  }

  /** TILT is reported exactly when the tilt test alone fires. */
  lemma TiltOnlyWhenGForceQuiet(d: SensorData)
    ensures DetectAccident(d).Detected? && DetectAccident(d).reason == Tilt
      <==> Complete(d) && d.gForce.value <= G_FORCE_THRESHOLD && Abs(d.tilt.value) > TILT_THRESHOLD
  {
  }

  /** Rolling the helmet the other way round gives the same verdict. */
  lemma TiltSignIrrelevant(d: SensorData)
    requires d.tilt.Some?
    ensures var m := d.(tilt := Some(-d.tilt.value));
      DetectAccident(m).Detected? == DetectAccident(d).Detected?
      && (DetectAccident(d).Detected? ==> DetectAccident(m).reason == DetectAccident(d).reason)
  {
  }

  /**
    A missing reading is harmless while the other one stays within its limit, and
    throws as soon as the other one trips its test.
   */
  lemma MissingReadingThrowsOnlyWhenTripped(d: SensorData)
    requires d.gForce.None? && d.tilt.Some?
    ensures DetectAccident(d).TypeFailure? <==> Abs(d.tilt.value) > TILT_THRESHOLD
    ensures DetectAccident(d).NotDetected? <==> Abs(d.tilt.value) <= TILT_THRESHOLD
  {
  }
}

=== FILE: server_sessions.dfy ===
/**
  The per-client incident bookkeeping of helmet-server/server.js: the socket
  handlers `accident_detected`, `accident_cancelled`, `no_response` and
  `disconnect` as transitions over the two maps `activeAccidents` and
  `lastAccidentTime` (keyed by socket id) plus the accident log they append to.
  Emissions are returned as a sequence of effects in handler order.
 */
module ServerSessions {
  import opened Json
  import ServerDetection
  import AlertService

  type ClientId = string

  const DUPLICATE_WINDOW_MS: nat := 30000

  datatype Server = Server(
    activeAccidents: map<ClientId, Record>,
    lastAccidentTime: map<ClientId, nat>,
    log: seq<Record>)

  const Initial := Server(map[], map[], [])

  /** What the server sends; `ToSender` goes to the handling socket, `Broadcast` to every other socket. */
  datatype Message =
    | AccidentConfirmed
    | AccidentDetected(gForce: real, tilt: real, timestamp: Value, location: Value, clientId: ClientId)
    | AccidentCancelled(clientId: ClientId, severity: string)
    | AccidentTimeout(clientId: ClientId, severity: string, accidentData: Record)

  datatype Effect = ToSender(msg: Message) | Broadcast(msg: Message)

  datatype Step = Step(server: Server, effects: seq<Effect>)

  /** `lastAccidentTime.get(id) || 0`. */
  function LastTime(s: Server, id: ClientId): nat {
    if id in s.lastAccidentTime then s.lastAccidentTime[id] else 0
  }

  /** True when an alert from `id` at `now` is swallowed as a duplicate. */
  predicate IsDuplicate(s: Server, id: ClientId, now: nat) {
    now - LastTime(s, id) < DUPLICATE_WINDOW_MS
  }

  /** Every entry not belonging to `id` is the same in both servers. */
  ghost predicate OthersUnchanged(s: Server, s': Server, id: ClientId) {
    && (forall c :: c != id ==> (c in s.activeAccidents <==> c in s'.activeAccidents))
    && (forall c :: c != id && c in s.activeAccidents ==> s'.activeAccidents[c] == s.activeAccidents[c])
    && (forall c :: c != id ==> (c in s.lastAccidentTime <==> c in s'.lastAccidentTime))
    && (forall c :: c != id && c in s.lastAccidentTime ==> s'.lastAccidentTime[c] == s.lastAccidentTime[c])
  }

  /** `socket.on('accident_detected', data)` for client `id`. */
  function OnAccidentDetected(s: Server, id: ClientId, data: ServerDetection.SensorData, now: nat): (r: Step)
    ensures IsDuplicate(s, id, now) ==> r == Step(s, [])
    ensures !IsDuplicate(s, id, now) ==>
      id in r.server.lastAccidentTime && r.server.lastAccidentTime[id] == now
    ensures !IsDuplicate(s, id, now) ==>
      (ServerDetection.DetectAccident(data).Detected? <==> r.effects != [])
    // A validator that throws leaves only the duplicate clock behind.
    ensures !IsDuplicate(s, id, now) && ServerDetection.DetectAccident(data).TypeFailure? ==>
      r == Step(s.(lastAccidentTime := s.lastAccidentTime[id := now]), [])
    ensures !IsDuplicate(s, id, now) && ServerDetection.Anomalous(data.gForce, data.tilt)
            && ServerDetection.Complete(data) ==>
      && id in r.server.activeAccidents
      && Get(r.server.activeAccidents[id], "detected") == Bool(true)
      // The stored entry is the validator's full positive record.
      && r.server.activeAccidents[id] == ServerDetection.VerdictRecord(ServerDetection.DetectAccident(data))
      && r.effects == [ToSender(AccidentConfirmed),
                       Broadcast(AccidentDetected(data.gForce.value, data.tilt.value, data.timestamp, data.location, id))]
    ensures !(ServerDetection.Anomalous(data.gForce, data.tilt) && ServerDetection.Complete(data)) ==>
      r.server.activeAccidents == s.activeAccidents
    ensures r.server.log == s.log
    ensures OthersUnchanged(s, r.server, id)
  {
    if IsDuplicate(s, id, now) then Step(s, [])
    else
      var s1 := s.(lastAccidentTime := s.lastAccidentTime[id := now]);
      var result := ServerDetection.DetectAccident(data);
      if result.Detected? then
        Step(s1.(activeAccidents := s1.activeAccidents[id := ServerDetection.VerdictRecord(result)]),
             [ToSender(AccidentConfirmed),
              Broadcast(AccidentDetected(result.gForce, result.tilt, data.timestamp, data.location, id))])
      else
        Step(s1, [])
  }

  /** Common clean-up after a resolution: both maps forget the client. */
  function Forget(s: Server, id: ClientId): (s': Server)
    ensures id !in s'.activeAccidents && id !in s'.lastAccidentTime
    ensures OthersUnchanged(s, s', id)
    ensures s'.log == s.log
  {
    s.(activeAccidents := s.activeAccidents - {id}, lastAccidentTime := s.lastAccidentTime - {id})
  }

  /** `socket.on('accident_cancelled')` for client `id`. */
  function OnAccidentCancelled(s: Server, id: ClientId, now: nat, loggedAt: string): (r: Step)
    ensures id !in s.activeAccidents ==> r == Step(s, [])
    ensures id in s.activeAccidents ==>
      && id !in r.server.activeAccidents && id !in r.server.lastAccidentTime
      && r.effects == [Broadcast(AccidentCancelled(id, "low"))]
      && |r.server.log| == |s.log| + 1 && r.server.log[..|s.log|] == s.log
      && Get(r.server.log[|s.log|], "userResponse") == Str("CANCELLED")
      && Get(r.server.log[|s.log|], "severity") == Str("FALSE_ALARM")
    ensures id in s.activeAccidents ==>
      r.server.log == AlertService.ClassifyAccident(s.log, s.activeAccidents[id], Str("CANCELLED"), now, loggedAt).log
    ensures OthersUnchanged(s, r.server, id)
  {
    if id !in s.activeAccidents then Step(s, [])
    else
      var c := AlertService.ClassifyAccident(s.log, s.activeAccidents[id], Str("CANCELLED"), now, loggedAt);
      Step(Forget(s.(log := c.log), id), [Broadcast(AccidentCancelled(id, "low"))])
  }

  /** `socket.on('no_response')` for client `id`. */
  function OnNoResponse(s: Server, id: ClientId, now: nat, loggedAt: string): (r: Step)
    ensures id !in s.activeAccidents ==> r == Step(s, [])
    ensures id in s.activeAccidents ==>
      && id !in r.server.activeAccidents && id !in r.server.lastAccidentTime
      && |r.effects| == 1 && r.effects[0].Broadcast?
      && r.effects[0].msg.AccidentTimeout? && r.effects[0].msg.clientId == id
      && r.effects[0].msg.severity == "high"
      && Get(r.effects[0].msg.accidentData, "severity") == Str("HIGH")
      && |r.server.log| == |s.log| + 1 && r.server.log[..|s.log|] == s.log
      && Get(r.server.log[|s.log|], "userResponse") == Str("NO_RESPONSE")
    ensures id in s.activeAccidents ==>
      var c := AlertService.ClassifyAccident(s.log, s.activeAccidents[id], Str("NO_RESPONSE"), now, loggedAt);
      r.server.log == c.log && r.effects == [Broadcast(AccidentTimeout(id, "high", c.accident))]
    ensures OthersUnchanged(s, r.server, id)
  {
    if id !in s.activeAccidents then Step(s, [])
    else
      var c := AlertService.ClassifyAccident(s.log, s.activeAccidents[id], Str("NO_RESPONSE"), now, loggedAt);
      Step(Forget(s.(log := c.log), id), [Broadcast(AccidentTimeout(id, "high", c.accident))])
  }

  /** `socket.on('disconnect')`: the open accident is dropped, the duplicate clock is kept. */
  function OnDisconnect(s: Server, id: ClientId): (s': Server)
    ensures id !in s'.activeAccidents
    ensures s'.lastAccidentTime == s.lastAccidentTime
    ensures s'.log == s.log
    ensures OthersUnchanged(s, s', id)
  {
    s.(activeAccidents := s.activeAccidents - {id})
  }

  /** Every client with an open accident was last admitted by the duplicate filter. */
  ghost predicate Valid(s: Server) {
    forall c :: c in s.activeAccidents ==> c in s.lastAccidentTime
  }

  datatype Event =
    | Detected(id: ClientId, data: ServerDetection.SensorData)
    | Cancelled(id: ClientId)
    | NoResponse(id: ClientId)
    | Disconnected(id: ClientId)

  /** One socket event, handled at time `now`. */
  function Handle(s: Server, e: Event, now: nat, loggedAt: string): Step {
    match e
    case Detected(id, data) => OnAccidentDetected(s, id, data, now)
    case Cancelled(id) => OnAccidentCancelled(s, id, now, loggedAt)
    case NoResponse(id) => OnNoResponse(s, id, now, loggedAt)
    case Disconnected(id) => Step(OnDisconnect(s, id), [])
  }

  /** Every handler keeps the server's bookkeeping consistent. */
  lemma HandlePreservesValid(s: Server, e: Event, now: nat, loggedAt: string)
    requires Valid(s)
    ensures Valid(Handle(s, e, now, loggedAt).server)
  {
  }

  /**
    After a resolution (cancel or no response) the client's next alert is never
    taken for a duplicate, however soon it comes. Times are epoch milliseconds,
    so `now` is far beyond the 30 s window of a client without a record.
   */
  lemma ResolutionClearsCooldown(s: Server, id: ClientId, t: nat, stamp: string,
                                 data: ServerDetection.SensorData, now: nat, cancelled: bool)
    requires id in s.activeAccidents
    requires now >= DUPLICATE_WINDOW_MS
    ensures var s1 := if cancelled then OnAccidentCancelled(s, id, t, stamp).server
                      else OnNoResponse(s, id, t, stamp).server;
      !IsDuplicate(s1, id, now)
      && (ServerDetection.DetectAccident(data).Detected? ==>
            id in OnAccidentDetected(s1, id, data, now).server.activeAccidents)
  {
  }

  /** A disconnect keeps the duplicate clock: a reconnecting id within 30 s is still ignored. */
  lemma DisconnectKeepsCooldown(s: Server, id: ClientId, data: ServerDetection.SensorData, now: nat)
    requires id in s.lastAccidentTime && now < s.lastAccidentTime[id] + DUPLICATE_WINDOW_MS
    ensures OnAccidentDetected(OnDisconnect(s, id), id, data, now) == Step(OnDisconnect(s, id), [])
  {
  }

  /** Replays a sequence of (event, time) pairs. */
  function Run(s: Server, events: seq<(Event, nat)>, loggedAt: string): Server
    decreases |events|
  {
    if |events| == 0 then s
    else Run(Handle(s, events[0].0, events[0].1, loggedAt).server, events[1..], loggedAt)
  }

  /** The client an event belongs to. */
  function Client(e: Event): ClientId {
    match e
    case Detected(id, _) => id
    case Cancelled(id) => id
    case NoResponse(id) => id
    case Disconnected(id) => id
  }

  /** However many events from other clients arrive, `id`'s entries stay as they were. */
  lemma {:induction false} OtherClientsIsolated(s: Server, events: seq<(Event, nat)>, loggedAt: string, id: ClientId)
    requires forall i :: 0 <= i < |events| ==> Client(events[i].0) != id
    ensures var s' := Run(s, events, loggedAt);
      (id in s'.activeAccidents <==> id in s.activeAccidents)
      && (id in s.activeAccidents ==> s'.activeAccidents[id] == s.activeAccidents[id])
      && (id in s'.lastAccidentTime <==> id in s.lastAccidentTime)
      && (id in s.lastAccidentTime ==> s'.lastAccidentTime[id] == s.lastAccidentTime[id])
    decreases |events|
  {
    if |events| > 0 {
      var s1 := Handle(s, events[0].0, events[0].1, loggedAt).server;
      assert OthersUnchanged(s, s1, Client(events[0].0));
      OtherClientsIsolated(s1, events[1..], loggedAt, id);
    }
  }
}

=== FILE: simulate_route.dfy ===
/**
  The decision logic of `POST` in
  smart-helmet-dashboard/app/api/simulate-accident/route.ts: request-body
  defaults, the severity, the telemetry record with preset readings, whether an
  e-mail is sent, the response, and the store update. The request body arrives
  already decoded with the field types the dashboard and the server send
  (`None` for a body that is missing or not JSON). The SMTP transport is an
  input: whether credentials are configured, and how the send attempt ends.
  `Date.now()` is the explicit `now`.
 */
module SimulateRoute {
  import opened Wrappers
  import opened Text
  import opened AccidentsStore

  const DEFAULT_LATITUDE: real := 15.3647
  const DEFAULT_LONGITUDE: real := 75.1240
  const DEFAULT_SEVERITY := "high"
  const RIDER_NAME := "Simran Kalkeri"
  const HELMET_ID := "SH-2024-001"

  const MESSAGE_SENT := "Alert & Email Sent!"
  const MESSAGE_OTHER := "Simulation Logged (Email Failed)"
  const AUTH_ERROR := "SMTP Auth Failed. Check .env.local credentials."

  /** Accelerometer axes as they may appear under `body.acceleration`. */
  datatype Accel = Accel(x: Option<real>, y: Option<real>, z: Option<real>)

  /** The JSON request body; `None` stands for an absent or `null` field. */
  datatype Body = Body(
    latitude: Option<real>,
    longitude: Option<real>,
    severity: Option<string>,
    gForce: Option<real>,
    tilt: Option<real>,
    acceleration: Option<Accel>,
    timestamp: Option<int>,
    source: Option<string>)

  /** Truthiness of an optional number: present and not zero. */
  predicate TruthyNum(v: Option<real>) {
    v.Some? && v.value != 0.0
  }

  /** Truthiness of an optional string: present and not empty. */
  predicate TruthyStr(v: Option<string>) {
    v.Some? && v.value != ""
  }

  /** How the transport's `sendMail` call ends. */
  datatype SendResult = Delivered | Rejected(code: string)

  datatype EmailStatus = NotSent | SimulatedSent | Sent | Failed

  /** The `telemetry` object: the stored accident plus its source tag. */
  datatype Telemetry = Telemetry(accident: Accident, source: string)

  datatype Response =
    | Ok(success: bool, message: string, data: Telemetry, emailStatus: EmailStatus)
    | AuthFailed(error: string, emailStatus: EmailStatus)

  function HttpStatus(r: Response): nat {
    if r.Ok? then 200 else 401
  }

  /** The route's result: the response, the store afterwards, and whether the transport was called. */
  datatype Outcome = Outcome(response: Response, store: Store, mailed: bool)

  /** The coordinates: the body's pair only when both are truthy. */
  function Coordinates(body: Option<Body>): (c: (real, real))
    ensures body.Some? && TruthyNum(body.value.latitude) && TruthyNum(body.value.longitude) ==>
      c == (body.value.latitude.value, body.value.longitude.value)
    ensures !(body.Some? && TruthyNum(body.value.latitude) && TruthyNum(body.value.longitude)) ==>
      c == (DEFAULT_LATITUDE, DEFAULT_LONGITUDE)
  {
    if body.Some? && TruthyNum(body.value.latitude) && TruthyNum(body.value.longitude) then
      (body.value.latitude.value, body.value.longitude.value)
    else (DEFAULT_LATITUDE, DEFAULT_LONGITUDE)
  }

  /** The severity: 'high' unless the body carries a non-empty one. */
  function Severity(body: Option<Body>): (s: string)
    ensures s == DEFAULT_SEVERITY || (body.Some? && body.value.severity == Some(s))
    ensures body.Some? && TruthyStr(body.value.severity) ==> s == body.value.severity.value
    ensures s != ""
  {
    if body.Some? && TruthyStr(body.value.severity) then body.value.severity.value else DEFAULT_SEVERITY
  }

  /** A measured axis when the body has one (even zero), otherwise the preset for the severity. */
  function AxisReading(acceleration: Option<Accel>, axis: Option<real>, high: string, low: string,
                       severity: string): (r: Reading)
    ensures acceleration.Some? && axis.Some? ==> r == Measured(axis.value)
    ensures !(acceleration.Some? && axis.Some?) ==> r == Preset(if severity == "high" then high else low)
  {
    if acceleration.Some? && axis.Some? then Measured(axis.value)
    else Preset(if severity == "high" then high else low)
  }

  function Pick(high: bool, a: string, b: string): string {
    if high then a else b
  }

  /** The sensor block: measured values where the body has them, presets by severity elsewhere. */
  function SensorsFor(body: Option<Body>, severity: string): (s: Sensors)
    ensures body.Some? && body.value.gForce.Some? ==> s.impactForce == Measured(body.value.gForce.value)
    ensures body.Some? && body.value.tilt.Some? ==> s.tiltAngle == Measured(Abs(body.value.tilt.value))
    ensures !(body.Some? && body.value.gForce.Some?) ==>
      s.impactForce == Preset(if severity == "high" then "15.8 G" else "4.2 G")
    ensures !(body.Some? && body.value.tilt.Some?) ==>
      s.tiltAngle == Preset(if severity == "high" then "78°" else "35°")
    ensures s.gyroX == Preset(if severity == "high" then "245.3" else "45.2")
    ensures s.gyroY == Preset(if severity == "high" then "189.7" else "32.1")
    ensures s.gyroZ == Preset(if severity == "high" then "156.4" else "28.5")
    ensures var acc := if body.Some? then body.value.acceleration else None;
      && (acc.Some? && acc.value.x.Some? ==> s.accelX == Measured(acc.value.x.value))
      && (acc.Some? && acc.value.y.Some? ==> s.accelY == Measured(acc.value.y.value))
      && (acc.Some? && acc.value.z.Some? ==> s.accelZ == Measured(acc.value.z.value))
    ensures var acc := if body.Some? then body.value.acceleration else None;
      && (!(acc.Some? && acc.value.x.Some?) ==> s.accelX == Preset(if severity == "high" then "8.5" else "2.1"))
      && (!(acc.Some? && acc.value.y.Some?) ==> s.accelY == Preset(if severity == "high" then "6.2" else "1.8"))
      && (!(acc.Some? && acc.value.z.Some?) ==> s.accelZ == Preset(if severity == "high" then "12.3" else "3.2"))
  {
    var high := severity == "high";
    var acc := if body.Some? then body.value.acceleration else None;
    var ax := if acc.Some? then acc.value.x else None;
    var ay := if acc.Some? then acc.value.y else None;
    var az := if acc.Some? then acc.value.z else None;
    Sensors(
      Preset(Pick(high, "245.3", "45.2")),
      Preset(Pick(high, "189.7", "32.1")),
      Preset(Pick(high, "156.4", "28.5")),
      AxisReading(acc, ax, "8.5", "2.1", severity),
      AxisReading(acc, ay, "6.2", "1.8", severity),
      AxisReading(acc, az, "12.3", "3.2", severity),
      if body.Some? && body.value.tilt.Some? then Measured(Abs(body.value.tilt.value))
      else Preset(Pick(high, "78°", "35°")),
      if body.Some? && body.value.gForce.Some? then Measured(body.value.gForce.value)
      else Preset(Pick(high, "15.8 G", "4.2 G")))
  }

  function Abs(x: real): real {
    if x < 0.0 then -x else x
  }

  /** The event id: `EVT-` and the last four digits of the clock. */
  function EventId(now: nat): (id: string)
    ensures 5 <= |id| <= 8 && id[..4] == "EVT-"
    ensures id[4..] == LastChars(NatToString(now), 4)
  {
    "EVT-" + LastChars(NatToString(now), 4)
  }

  /** The telemetry built from the body at `now`. */
  function TelemetryFor(body: Option<Body>, now: nat): (t: Telemetry)
    ensures t.accident.severity == Severity(body)
    ensures (t.accident.latitude, t.accident.longitude) == Coordinates(body)
    ensures t.accident.isCancelled <==> Severity(body) == "low"
    ensures t.accident.sensors == SensorsFor(body, Severity(body))
    ensures t.accident.id == EventId(now)
    ensures t.accident.riderName == RIDER_NAME && t.accident.helmetId == HELMET_ID
    ensures t.accident.timestampMs ==
      (if body.Some? && body.value.timestamp.Some? && body.value.timestamp.value != 0
       then body.value.timestamp.value else now)
    ensures t.source == (if body.Some? && TruthyStr(body.value.source) then body.value.source.value else "UNKNOWN")
  {
    var severity := Severity(body);
    var (lat, long) := Coordinates(body);
    var ts := if body.Some? && body.value.timestamp.Some? && body.value.timestamp.value != 0
              then body.value.timestamp.value else now;
    var source := if body.Some? && TruthyStr(body.value.source) then body.value.source.value else "UNKNOWN";
    Telemetry(
      Accident(EventId(now), RIDER_NAME, HELMET_ID, ts, lat, long, severity,
               SensorsFor(body, severity), severity == "low"),
      source)
  }

  /** The e-mail step: only a 'high' accident is mailed, and only with credentials. */
  function EmailStep(severity: string, credentials: bool, send: SendResult): (r: (EmailStatus, bool))
    ensures r.1 <==> severity == "high" && credentials
    ensures severity != "high" ==> r.0 == NotSent
    ensures severity == "high" && !credentials ==> r.0 == SimulatedSent
    ensures r.1 ==> (r.0 == Sent <==> send == Delivered) && (r.0 == Failed <==> send.Rejected?)
  {
    if severity != "high" then (NotSent, false)
    else if !credentials then (SimulatedSent, false)
    else if send == Delivered then (Sent, true)
    else (Failed, true)
  }

  /** `POST(request)` against the store. */
  function Post(store: Store, body: Option<Body>, now: nat, credentials: bool, send: SendResult): (r: Outcome)
    ensures r.mailed <==> Severity(body) == "high" && credentials
    // An authentication failure answers 401 and stores nothing.
    ensures r.response.AuthFailed? <==> r.mailed && send == Rejected("EAUTH")
    ensures r.response.AuthFailed? ==>
      r.store == store && r.response.emailStatus == Failed && r.response.error == AUTH_ERROR
    // Otherwise the telemetry is stored at the front and echoed back.
    ensures r.response.Ok? ==>
      && r.store == AddAccident(store, TelemetryFor(body, now).accident)
      && r.response.data == TelemetryFor(body, now)
      && r.response.emailStatus == EmailStep(Severity(body), credentials, send).0
    ensures r.response.Ok? ==>
      && (r.response.success <==> r.response.emailStatus != Failed)
      && (r.response.message == MESSAGE_SENT <==> r.response.emailStatus == Sent)
      && (r.response.message != MESSAGE_SENT ==> r.response.message == MESSAGE_OTHER)
  {
    var t := TelemetryFor(body, now);
    var (status, mailed) := EmailStep(t.accident.severity, credentials, send);
    if mailed && send == Rejected("EAUTH") then
      Outcome(AuthFailed(AUTH_ERROR, Failed), store, mailed)
    else
      Outcome(Ok(status != Failed, if status == Sent then MESSAGE_SENT else MESSAGE_OTHER, t, status),
              AddAccident(store, t.accident), mailed)
  }

  /** A low-severity simulation never calls the transport, is stored as cancelled, and succeeds. */
  lemma LowSeverityIsLoggedOnly(store: Store, body: Body, now: nat, credentials: bool, send: SendResult)
    requires body.severity == Some("low")
    ensures var r := Post(store, Some(body), now, credentials, send);
      && !r.mailed && r.response.Ok? && r.response.success
      && r.response.emailStatus == NotSent && r.response.message == MESSAGE_OTHER
      && r.store[0].isCancelled && r.store[0].severity == "low"
  {
  }

  /** With no body at all, the simulation is a 'high' crash at the default coordinates. */
  lemma NoBodyUsesDefaults(now: nat)
    ensures var t := TelemetryFor(None, now);
      && t.accident.severity == "high" && !t.accident.isCancelled
      && t.accident.latitude == DEFAULT_LATITUDE && t.accident.longitude == DEFAULT_LONGITUDE
      && t.accident.timestampMs == now && t.source == "UNKNOWN"
  {
  }

  /** One coordinate alone is ignored: both default. */
  lemma OneCoordinateIgnored(body: Body)
    requires TruthyNum(body.latitude) && !TruthyNum(body.longitude)
    ensures Coordinates(Some(body)) == (DEFAULT_LATITUDE, DEFAULT_LONGITUDE)
  {
  }
}

=== FILE: text.dfy ===
/**
  String helpers the modules share: JavaScript's `String(n)` / template
  interpolation of a non-negative integer, `lastIndexOf`, `startsWith`,
  `slice(-k)`, and a decimal reader used as the partner of the writer.
 */
module Text {
  import opened Wrappers

  predicate IsDigit(c: char) {
    '0' <= c <= '9'
  }

  function DigitChar(d: nat): (c: char)
    requires d < 10
    ensures IsDigit(c)
  {
    "0123456789"[d]
  }

  function DigitValue(c: char): (d: nat)
    requires IsDigit(c)
    ensures d < 10
  {
    (c as int - '0' as int) as nat
  }

  /** Decimal text of `n`, most significant digit first, no leading zeros. */
  function NatToString(n: nat): (s: string)
    ensures |s| >= 1
    ensures forall i :: 0 <= i < |s| ==> IsDigit(s[i])
    ensures |s| > 1 ==> s[0] != '0'
    decreases n
  {
    if n < 10 then [DigitChar(n)] else NatToString(n / 10) + [DigitChar(n % 10)]
  }

  /** Reads a string of digits back as a number. */
  function ParseDigits(s: string): nat
    requires forall i :: 0 <= i < |s| ==> IsDigit(s[i])
  {
    if |s| == 0 then 0 else ParseDigits(s[..|s| - 1]) * 10 + DigitValue(s[|s| - 1])
  }

  /** Writing a number in decimal and reading it back gives the number. */
  lemma {:induction false} ParseNatToString(n: nat)
    ensures ParseDigits(NatToString(n)) == n
    decreases n
  {
    var s := NatToString(n);
    if n < 10 {
      assert s[..|s| - 1] == [];
    } else {
      var p := NatToString(n / 10);
      assert s == p + [DigitChar(n % 10)];
      assert s[..|s| - 1] == p;
      ParseNatToString(n / 10);
    }
  }

  /** Distinct numbers have distinct decimal text. */
  lemma NatToStringInjective(m: nat, n: nat)
    ensures NatToString(m) == NatToString(n) ==> m == n
  {
    ParseNatToString(m);
    ParseNatToString(n);
  }

  /** `s.lastIndexOf(c)`: the position of the last `c`, if any. */
  function LastIndexOf(s: string, c: char): (r: Option<nat>)
    ensures r.Some? ==> r.value < |s| && s[r.value] == c
    ensures r.Some? ==> forall j :: r.value < j < |s| ==> s[j] != c
    ensures r.None? ==> forall j :: 0 <= j < |s| ==> s[j] != c
  {
    if |s| == 0 then None
    else if s[|s| - 1] == c then Some(|s| - 1)
    else LastIndexOf(s[..|s| - 1], c)
  }

  predicate StartsWith(s: string, prefix: string) {
    |prefix| <= |s| && s[..|prefix|] == prefix
  }

  /** `s.slice(-k)`: the last `k` characters, or all of `s` when shorter. */
  function LastChars(s: string, k: nat): (r: string)
    ensures |r| == if |s| < k then |s| else k
    ensures r == s[|s| - |r|..]
  {
    if |s| <= k then s else s[|s| - k..]
  }
}

=== FILE: wrappers.dfy ===
/** The optional-value datatype shared by every module of the model. */
module Wrappers {

  /** A value that may be absent; stands for `null`/`undefined` in typed positions. */
  datatype Option<+T> = None | Some(value: T) {

    /** The wrapped value, or `default` when absent. */
    function GetOr(default: T): T {
      match this
      case Some(v) => v
      case None => default
    }
  }
}
